=== FILE: README.md ===
# Price monitor worker, modelled in Dafny

This project models the core of a shopping price monitor. The monitor keeps a list of product pages and a target price for each. A background worker polls a table of scraping tasks. It runs each due task in a headless browser and reads the price off the rendered page. A non-zero price is recorded as a datapoint, and a separate pass schedules the item's next scrape about a day later. Another pass looks for items whose latest price is at or below target and sends a Telegram alert; over passes that run one after another, it sends at most one alert per item and price.

The model covers that worker (`workers/scraper.js`) and the alert sender (`services/notificationService.js`):

- `records.dfy`: the rows of the SQLite tables. Tables are sequences in insertion order, times are integer milliseconds, and prices are exact reals.
- `text.dfy`, `decimals.dfy`: character classes, filtering, and `parseFloat`. `parseFloat` is restricted to the digits-and-dots strings the extractor hands it and yields an exact decimal. It is proved equal to a reference definition: the value of the longest decimal-literal prefix.
- `extractor.dfy`: `extractPrice`, as an ordered list of rules over a page oracle. The four meta rules come first, then the fourteen content rules, and the first rule that does not pass decides the result.
- `extractor_examples.dfy`: the test pages of `tests/scraper.test.js`, plus pages for the edge cases of the code.
- `pending.dfy`: `getPendingTasks`, the selection of due tasks.
- `worker.dfy`: `processTask` with `updateTaskStatus` and `saveDataPoint`; `checkPendingTasks`; the in-flight guard set.
- `scheduler.dfy`: `scheduleNewTasks` and `createNextTask`.
- `notifier.dfy`: `sendPriceAlert` and its deduplication ledger.
- `price_drops.dfy`: `checkPriceDrops`.

Effects become inputs:

- The browser session is a `ScrapeOutcome`.
- `Math.random()` is one jitter per new task.
- The wall clock is a `now` parameter, one per pass.
- The Telegram send is a `delivered` flag per alert.

### Quirks of the code

The model follows the code in each case:

- **Re-alerts** (workers/scraper.js:103-130, services/notificationService.js:31-50). An alert for an item at a price is never repeated. `sendPriceAlert` suppresses on any earlier `price_drop` record for the pair, however old. The comment at workers/scraper.js:103 and the seven-day window of the candidate query suggest a weekly re-alert. Instead, an item whose alert is older than a week becomes a candidate again, and its alert is then suppressed (`PriceDrops.StaleAlertStillSuppressed`).
- **Jitter** (workers/scraper.js:68-69). The jitter of a new task lies in [-30 min, +30 min). The comment beside it claims ±1 hour.
- **Artifact paths on failure** (workers/scraper.js:319-341). A failed attempt records null artifact paths, even when the screenshot and the HTML were already written.
- **NaN from a content rule** (workers/scraper.js:202-205). A content element whose `[\d,.]` run does not parse, such as ".", ends extraction with NaN. Later selectors are not tried.
- **Meta element without `content`** (workers/scraper.js:167-171). A matched meta element without a `content` attribute makes extraction throw. It does not pass to the next selector.
- **Overlapping polls** (workers/scraper.js:439-445). `setInterval` does not wait for the previous tick, so polls can overlap, and two races follow:
  - **A task runs twice.** `processTask` checks only the in-flight set (workers/scraper.js:299-302), not whether the row is still pending. A poll that selected a task before another poll finished it scrapes it again, saves a second datapoint and stamps the row anew (`Worker.StaleSelectionRunsTwice`).
  - **An alert is sent twice.** `sendPriceAlert` looks up the ledger (services/notificationService.js:31-42) and inserts (64-74) in separate steps. Two overlapping calls for the same pair can both pass the lookup and both send (`Notifier.OverlappingCallsBothDeliver`).

  The at-most-once properties below hold for polls and calls that run one after another.

## Model

| member | source | states |
|---|---|---|
| Decimals.ZeroIffZeroMantissa | workers/scraper.js:328-330 | A parsed price is zero exactly when its mantissa is zero, whatever its scale ("0.00"); this is the falsy case of `!price` |
| Decimals.ParseFloat | workers/scraper.js:166-173 | On a digits-and-dots string, `parseFloat` is NaN exactly when the string is empty or starts with "." followed by nothing or by another "." |
| Decimals.ParseFloatIsLongestLiteral | workers/scraper.js:166-173 | `parseFloat` is NaN exactly when no prefix is a decimal literal, and otherwise it is the value of the longest literal prefix |
| Decimals.ParsePointNumber | workers/scraper.js:204 | "a.b" with digit strings a and b parses to the number with digits ab and \|b\| decimal places |
| Decimals.SecondDotEndsNumber | workers/scraper.js:204 | Parsing stops at a second dot: "a.b.rest" has the value of "a.b" |
| Extractor.CleanMetaContent | workers/scraper.js:168-171 | Dropping everything outside `[\d,.]` and then the commas leaves exactly the digits and dots of the value, in order |
| Extractor.FirstRun | workers/scraper.js:202 | `match(/[\d,.]+/)` finds nothing exactly when the text has no digit, comma or dot; otherwise it finds the leftmost maximal run of such characters |
| Extractor.RunText | workers/scraper.js:204 | `match[0]` is a non-empty string of digits, commas and dots |
| Extractor.StripCommas | workers/scraper.js:204 | A run with its commas removed holds only digits and dots |
| Extractor.MetaOutcome | workers/scraper.js:163-177 | A meta rule passes when its element is absent or its value does not parse; it throws exactly when the element has no `content`; otherwise it yields the parsed value |
| Extractor.ContentOutcome | workers/scraper.js:198-206 | A content rule passes exactly when its element is absent or its text has no `[\d,.]` character; otherwise it yields what the comma-free run parses to, NaN included |
| Extractor.FirstYield | workers/scraper.js:153-209 | The result is null exactly when every rule passes; otherwise it is the result of the first rule that does not pass |
| Extractor.FirstYieldAt | workers/scraper.js:163-207 | When every rule before position k passes and rule k yields, the extraction result is rule k's result |
| Extractor.MetaWinsOverContent | workers/scraper.js:163-178 | Once a meta rule yields, nothing on the page outside the meta selectors can change the result |
| Extractor.ContentAfterMeta | workers/scraper.js:180-207 | When no meta rule yields, the result is that of the content rules alone |
| Extractor.SkipPrefix | workers/scraper.js:163-207 | Rules that all pass can be dropped from the front without changing the result |
| Extractor.ExtractPrice | workers/scraper.js:153-209 | `extractPrice` returns null exactly when every meta rule passes and every content element is absent or has no digit, comma or dot; otherwise it returns the result of the first rule, meta before content, that does not pass |
| Extractor.NotFoundIffNoRuleApplies | workers/scraper.js:153-209 | Running the rules in order gives null exactly when every meta rule passes and every content element is absent or has no digit, comma or dot |
| ExtractorExamples.MetaBeatsContentExample | tests/scraper.test.js:37-51 | An `og:price:amount` of "99.99" gives 99.99, whatever the `.price` div says |
| ExtractorExamples.MetaCommaExample | tests/scraper.test.js:53-67 | An `og:price:amount` of "99,999.99" gives 99999.99 |
| ExtractorExamples.DataPriceExample | tests/scraper.test.js:69-80 | `<div data-price="149.99">$149.99</div>` gives 149.99 |
| ExtractorExamples.ClassContainsPriceExample | tests/scraper.test.js:82-93 | `<div class="product-price">$199.99</div>` gives 199.99 |
| ExtractorExamples.ContentCommaExample | tests/scraper.test.js:95-106 | `<div class="price">$1,299.99</div>` gives 1299.99 |
| ExtractorExamples.NoPriceExample | tests/scraper.test.js:108-119 | A page that no selector matches gives null |
| ExtractorExamples.TextWithoutDigitsExample | workers/scraper.js:198-208 | Matched content elements whose text has no digit, comma or dot give null |
| ExtractorExamples.DollarRule | workers/scraper.js:198-206 | A content element reading "$" followed by digits and dots yields the value of the digits and dots |
| ExtractorExamples.DotRunRule | workers/scraper.js:202-204 | A content element reading "." yields NaN |
| ExtractorExamples.NaNRunStopsExtraction | workers/scraper.js:198-206 | A content element reading "." ends extraction with NaN even when a later selector holds "$5" |
| ExtractorExamples.MetaWithoutContentThrows | workers/scraper.js:163-172 | A matched `meta[itemprop="price"]` without `content` makes extraction throw, even when a content element holds "$5" |
| ExtractorExamples.SkipsBeforeContent | workers/scraper.js:163-207 | On a page with no meta element and no match for the first n content selectors, every rule before content rule n passes |
| ExtractorExamples.FilterDropsOne | workers/scraper.js:171 | Removing one rejected character between kept ones joins the two sides |
| Pending.Eligible | workers/scraper.js:29-36 | A row is selectable when it is not executed, its item exists and is enabled, it is due, and its id is not in flight |
| Pending.EligibleTasks | workers/scraper.js:26-37 | Every row kept satisfies the WHERE clause, every stored row that satisfies it is kept, and nothing else is added |
| Pending.Insert | workers/scraper.js:39 | Inserting into a sequence sorted by scheduled time keeps it sorted and adds exactly the one task |
| Pending.SortBySchedule | workers/scraper.js:39 | `ORDER BY scheduled_time ASC` is a sorted permutation of its input |
| Pending.PendingTasks | workers/scraper.js:20-47 | At most five tasks, each not executed, for an enabled item, due, and not in flight; in ascending scheduled time; drawn from the table; an eligible task is left out only when five tasks due no later than it are returned |
| Pending.PrefixOfSorted | workers/scraper.js:39 | `LIMIT 5` on a sorted sequence keeps it sorted, and no task left out is due earlier than one kept |
| Pending.LeftOut | workers/scraper.js:39 | An eligible task missing from the result means five tasks were returned, each due no later than it |
| Worker.MarkExecuted | workers/scraper.js:49-65 | `updateTaskStatus` stamps every row with the task's id as executed now, with the given success and paths, keeping its item, URL and schedule; other rows are unchanged |
| Worker.BeginTask | workers/scraper.js:299-308 | The guard refuses a task exactly when its id is already in flight; otherwise it adds the id |
| Worker.Succeeded | workers/scraper.js:310-333 | An attempt succeeds exactly when no exception occurred and extraction returned a number that is neither NaN nor zero (`!price`) |
| Worker.CompleteTask | workers/scraper.js:310-345 | Every row with the task's id is stamped executed now, keeping its id and item. It is successful exactly when the attempt succeeded, with artifact paths exactly then. One datapoint at the extracted price is appended exactly on success. Other rows, items and notifications are unchanged, and the id leaves the in-flight set |
| Worker.ProcessTask | workers/scraper.js:298-346 | A task already in flight changes nothing. Otherwise every row with the task's id is stamped executed now, with success exactly when a truthy price was extracted and artifact paths exactly on success. One datapoint is appended exactly on success. Other rows, items and notifications are unchanged, and the in-flight set is restored |
| Worker.ZeroOrNaNFails | workers/scraper.js:328-333 | A price of NaN or of zero (at any scale) saves no datapoint |
| Worker.InFlightNotSelected | workers/scraper.js:20-47 | While a task is in flight, no poll selects it |
| Worker.ExecutedTaskNeverReselected | workers/scraper.js:298-346 | Once processed, a task is never selected again by a later poll, at any later time and with any in-flight set |
| Worker.StaleSelectionRunsTwice | workers/scraper.js:298-346 | A task handed to `processTask` again after it was processed, as an overlapping poll can do, passes the guard: a second datapoint is saved and the row is stamped with the second finish time |
| Worker.SelectedAreStoredPending | workers/scraper.js:26-32 | Every selected task is a stored row not yet executed |
| Worker.NoPendingRowWithId | workers/scraper.js:49-65 | After processing, no row with the task's id is pending |
| Worker.ProcessKeepsInvariants | workers/scraper.js:298-346 | Processing keeps task ids unique and keeps at most one pending task per item |
| Worker.StampedBy | workers/scraper.js:49-65 | A row stamped by an attempt: executed now, same id and item, successful exactly when the attempt succeeded, with both artifact paths exactly then |
| Worker.ProcessStep | workers/scraper.js:385-387 | Processing one more task not in flight extends the pass's progress by that task and at most one datapoint |
| Worker.CheckPendingTasks | workers/scraper.js:380-391 | Every selected task ends up executed now for its item. It is successful exactly when its attempt succeeded, with artifact paths exactly then. Every other task is unchanged. The appended datapoints are exactly those of the successful attempts, in selection order, so at most five. Items, notifications and the in-flight set are unchanged |
| Worker.ProcessAll | workers/scraper.js:385-387 | Processing the selected tasks in turn stamps exactly their rows, each with its own attempt's success and paths, and appends exactly the datapoints of the successful attempts, in order |
| Worker.SavedPoints | workers/scraper.js:328-333 | The datapoints a run of tasks saves: at most one per task, each stamped now |
| Worker.SavedStep | workers/scraper.js:385-387 | Processing the next selected task extends the appended datapoints by exactly that task's saved datapoint, if its attempt succeeded |
| Scheduler.NeedsTask | workers/scraper.js:352-357 | An item needs a task when it is enabled and no task for it is unexecuted |
| Scheduler.ItemsNeedingTasks | workers/scraper.js:351-357 | Every row returned is an enabled item without a pending task, and every such item is returned |
| Scheduler.NeedingIdsDistinct | workers/scraper.js:351-357 | Items with distinct ids give rows with distinct ids |
| Scheduler.MaxTaskId | models/database.js:48-49 | The next AUTOINCREMENT key exceeds every existing task id |
| Scheduler.NewTask | workers/scraper.js:67-85 | The new task is pending, for the item's id and URL, and due a day from now give or take half an hour |
| Scheduler.NewTasks | workers/scraper.js:367-374 | The k-th new task is pending, for the k-th needing item's id and URL, due a day from now give or take half an hour, with the k-th consecutive id |
| Scheduler.ScheduleNewTasks | workers/scraper.js:348-378 | Old rows stay as they were. One new task is added per needing item, in order; each is pending and fresh for its item, with an id above every old id, and the ids increase. Items, datapoints and notifications are unchanged |
| Scheduler.EveryEnabledItemScheduled | workers/scraper.js:348-378 | After a pass, every enabled item has a pending task |
| Scheduler.PendingKept | workers/scraper.js:348-378 | Appending rows never removes an item's pending task |
| Scheduler.SecondPassSchedulesNothing | workers/scraper.js:348-378 | A second pass right after a first finds no item needing a task |
| Scheduler.NoneNeeding | workers/scraper.js:351-357 | When every enabled item has a pending task, the query returns nothing |
| Scheduler.OneNewTaskPerNeedingItem | workers/scraper.js:348-378 | With distinct item ids, an item gets a new task exactly when it is enabled and had no pending task, and no item gets two |
| Scheduler.RowsAfterPass | workers/scraper.js:367-374 | The rows after a pass are the old rows followed by the added ones |
| Scheduler.ScheduleKeepsUniqueTaskIds | workers/scraper.js:348-378 | A pass keeps task ids unique |
| Scheduler.ScheduleKeepsOnePendingPerItem | workers/scraper.js:348-378 | With distinct item ids, a pass keeps at most one pending task per item |
| Notifier.AlreadyAlerted | services/notificationService.js:31-42 | The lookup finds a `price_drop` record for the item at exactly this price, of any age |
| Notifier.SendPriceAlert | services/notificationService.js:28-80 | Suppressed exactly when a `price_drop` record for the item at that price exists, of any age. Otherwise the message is sent, and exactly one record is appended only once delivery succeeds. A failed send leaves the ledger as it was |
| Notifier.OtherPairsUnaffected | services/notificationService.js:31-42 | Appending a record for one item and price leaves every other pair's alerted status unchanged |
| Notifier.RunAlerts | services/notificationService.js:28-80 | A series of calls only appends to the ledger, at most one record per call, and gives one outcome per call |
| Notifier.AtMostOneAlertPerPrice | services/notificationService.js:28-80 | Over any series of calls run one after another, an item is alerted at most once per price, and never when an alert at that price is already on record |
| Notifier.OverlappingCallsBothDeliver | services/notificationService.js:31-74 | Two calls for a pair not yet alerted that both look up the ledger before either inserts both deliver |
| Notifier.AlertsPersist | services/notificationService.js:64-74 | A recorded alert stays on the ledger through any further calls |
| Notifier.DeliverableCallRecorded | services/notificationService.js:44-74 | A call whose delivery goes through leaves its pair alerted, whatever follows |
| Notifier.RecordedBy | services/notificationService.js:64-74 | The record a call appends once its delivery has gone through |
| Notifier.FromDeliveredCall | services/notificationService.js:64-74 | The record of one of the calls whose outcome was `Delivered` |
| Notifier.RecordsComeFromCalls | services/notificationService.js:64-74 | Every appended record is a `price_drop` alert for one of the calls, at its time, and that call's outcome is `Delivered` |
| Notifier.NewRecordsFresh | services/notificationService.js:31-74 | Every record a series of calls appends is for an (item, price) pair with no earlier `price_drop` record, old or appended earlier in the series |
| Notifier.NoDuplicateAlerts | services/notificationService.js:31-50 | No two `price_drop` records share an item and a price |
| Notifier.RunAlertsKeepsNoDuplicates | services/notificationService.js:28-80 | Calls run one after another keep a ledger free of duplicate alerts |
| PriceDrops.LatestDataPoint | workers/scraper.js:105-111 | The `rn = 1` row is absent exactly when the item has no datapoint; otherwise it is a datapoint of the item with the greatest timestamp |
| PriceDrops.RecentlyNotified | workers/scraper.js:113-117 | A notification of any type for the item at exactly this price was sent no earlier than seven days ago |
| PriceDrops.IsDrop | workers/scraper.js:118-130 | The item is enabled and notifying, and has a latest price at or below target that was not notified in the last seven days |
| PriceDrops.DropsAmong | workers/scraper.js:118-130 | Every row returned is an enabled, notifying item at or below target at its latest price, not notified at that price in the last seven days |
| PriceDrops.DropsAmongComplete | workers/scraper.js:118-130 | No item meeting the WHERE clause is missing from the rows |
| PriceDrops.AlertOfDelivered | workers/scraper.js:141-147 | A `price_drop` record sent now for one of the candidates whose message went through, at its current price |
| PriceDrops.PassRecordsDelivered | workers/scraper.js:141-147 | Every record a pass appends is the alert of a candidate whose message went through |
| PriceDrops.PassRecordsDistinct | workers/scraper.js:141-147 | No two records a pass appends share an item and a price |
| PriceDrops.CheckPriceDrops | workers/scraper.js:100-151 | Only notifications grow, by appending. Every new record is a `price_drop` alert sent now for a candidate whose delivery succeeded, at its current price. Every new record is for a pair with no earlier `price_drop` record, so no two new records share a pair and a candidate gets at most one. A ledger without duplicate alerts stays so. Every candidate whose delivery succeeds is on record afterwards |
| PriceDrops.NeverRealerted | workers/scraper.js:141-147 | An item already alerted at a price is not alerted at that price by any later pass |
| PriceDrops.StaleAlertStillSuppressed | workers/scraper.js:113-130 | An item whose notifications at its current price are all older than seven days, one of them a `price_drop` alert, is a candidate again, yet its alert is suppressed |

## Left out

- The browser session of `scrapePrice` (workers/scraper.js:211-296) is not modelled. This covers launching, navigation, the 60-second timeout race, screenshots and markup. Its result or failure is the `ScrapeOutcome` input; CSS selector matching is the page oracle.
- Writing the screenshot and HTML files, and the timestamped file names, are left out. The paths are inputs, and a failed write is a `Crashed` outcome.
- Database errors are left out, and every SQL statement is assumed to succeed. The `err` callbacks only reject or log.
- Floating point is left out. Prices are exact decimals and the REAL columns are exact reals, so rounding of values like 99999.99 is not modelled. In particular, a digits-and-dots string long enough that JavaScript's `parseFloat` underflows to 0 or overflows to Infinity would flip the `!price` test (workers/scraper.js:328-330); the model parses it exactly, so such a price is non-zero and finite.
- Date formatting is left out: the `sv-SE` local-time string, SQLite's second-resolution `datetime`, and comparisons through `strftime`. Times are integer milliseconds.
- `Math.random()` and `Date.now()` are inputs. Each pass uses a single `now` for all its rows.
- AUTOINCREMENT task ids are modelled as one more than the largest existing id. SQLite also never reuses the id of a deleted row; no row is deleted here.
- The SELECTs of `scheduleNewTasks` and `checkPriceDrops` (workers/scraper.js:351-357, 118-130) have no ORDER BY. Their rows are taken in table order, which decides which item gets which consecutive new task id and the order of the alerts.
- Ties in `ORDER BY scheduled_time` and in the `ROW_NUMBER() ... ORDER BY timestamp DESC` window are left open, as SQL leaves them.
- Console logging is left out.
- The timers, the startup calls and the signal handlers (workers/scraper.js:393-455) are left out. Overlapping polls are not modelled as interleaved transitions. The in-flight set is modelled (`Worker.InFlightNotSelected`), and the two races overlap allows are exhibited (`Worker.StaleSelectionRunsTwice`, `Notifier.OverlappingCallsBothDeliver`). The at-most-once lemmas (`Worker.ExecutedTaskNeverReselected`, `Notifier.AtMostOneAlertPerPrice`, `PriceDrops.NeverRealerted`) hold for sequential runs only.
- Telegram message formatting, the client connection and authorisation (services/notificationService.js:1-26, 52-62) are left out. Delivery is the `delivered` input.
- services/setupTelegram.js, app.js and scrape-one.js are not part of this model.
- The `enable_notifications` column is read by `checkPriceDrops` but not declared by the schema in models/database.js:27-36. On that schema SQLite rejects the query with "no such column", and `checkPriceDrops` only logs the error (workers/scraper.js:133-135, 148-150) and never alerts. The model assumes a schema that has the column, held as an item field, so that the query's intended behaviour can be stated.
- PriceDrops.LatestDataPoint: does not say which row it picks among datapoints that share the latest timestamp, because the query does not either.

=== FILE: decimals.dfy ===
/**
 Exact decimals and JavaScript's `parseFloat` restricted to the alphabet the
 extractor ever hands it: ASCII digits and `.` (commas and everything else have
 been removed before the call). On that alphabet `parseFloat` reads the longest
 prefix of the shape digits [ `.` digits ] that holds at least one digit, and
 yields NaN when there is none; no exponent, sign, whitespace or `Infinity` can
 occur. The value is kept exactly as mantissa / 10^scale instead of as a double.
 */
module Decimals {
  import opened Text

  /** The number mantissa / 10^scale. */
  datatype Decimal = Decimal(mantissa: nat, scale: nat)

  /** A JavaScript number produced by `parseFloat`: a finite decimal or NaN. */
  datatype Number = Finite(d: Decimal) | NaN

  function Pow10(k: nat): (r: nat)
    ensures r >= 1
  {
    if k == 0 then 1 else 10 * Pow10(k - 1)
  }

  /** The real number a decimal denotes; stored prices are these values. */
  function ToReal(d: Decimal): real {
    d.mantissa as real / Pow10(d.scale) as real
  }

  /** JavaScript truthiness of a number: neither NaN nor zero. */
  predicate Truthy(n: Number) {
    n.Finite? && ToReal(n.d) != 0.0
  }

  /** A decimal is zero exactly when its mantissa is, whatever its scale ("0.00"). */
  lemma {:induction false} ZeroIffZeroMantissa(d: Decimal)
    ensures ToReal(d) == 0.0 <==> d.mantissa == 0
  {
    var p := Pow10(d.scale) as real;
    var m := d.mantissa as real;
    assert p >= 1.0;
    if d.mantissa != 0 {
      assert m >= 1.0;
      assert m / p > 0.0;
    }
  }

  predicate IsClean(s: string) {
    forall i :: 0 <= i < |s| ==> IsDigitOrDot(s[i])
  }

  function DigitValue(c: char): nat
    requires IsDigit(c)
  {
    c as int - '0' as int
  }

  /** The natural number written by a string of decimal digits (0 for the empty string). */
  function DigitsValue(s: string): nat
    requires AllDigits(s)
  {
    if s == [] then 0 else 10 * DigitsValue(s[..|s| - 1]) + DigitValue(s[|s| - 1])
  }

  /**
   `parseFloat` on a digits-and-dots string: an integer part, then, if a dot
   follows, a fraction part; NaN when both parts are empty.
   */
  function ParseFloat(s: string): (r: Number)
    requires IsClean(s)
    ensures r.NaN? <==> |s| == 0 || (s[0] == '.' && (|s| == 1 || s[1] == '.'))
  {
    var i := Span(s, IsDigit);
    var frac := if i < |s| then s[i + 1..][..Span(s[i + 1..], IsDigit)] else [];
    if i + |frac| == 0 then NaN
    else Finite(Decimal(DigitsValue(s[..i] + frac), |frac|))
  }

  // ---------------------------------------------------------------------
  // Reference definition: a decimal literal and the value it writes.

  predicate HasDigit(t: string) {
    exists k :: 0 <= k < |t| && IsDigit(t[k])
  }

  predicate AtMostOneDot(t: string) {
    forall p, q :: 0 <= p < q < |t| ==> t[p] != '.' || t[q] != '.'
  }

  /** digits [ `.` digits ], with at least one digit somewhere. */
  predicate IsLiteral(t: string) {
    IsClean(t) && AtMostOneDot(t) && HasDigit(t)
  }

  /** The digits of `t` with its dot removed. */
  function Digits(t: string): (r: string)
    requires IsClean(t)
    ensures AllDigits(r)
  {
    if t == [] then []
    else (if t[0] == '.' then [] else [t[0]]) + Digits(t[1..])
  }

  /** How many characters follow the (first) dot of `t`; 0 when there is none. */
  function FractionLength(t: string): nat {
    if t == [] then 0 else if t[0] == '.' then |t| - 1 else FractionLength(t[1..])
  }

  /** The decimal a literal writes: all its digits over 10^(digits after the dot). */
  function LiteralValue(t: string): Decimal
    requires IsClean(t)
  {
    Decimal(DigitsValue(Digits(t)), FractionLength(t))
  }

  lemma {:induction false} DigitsOfDigits(a: string)
    requires AllDigits(a)
    ensures Digits(a) == a
  {
    if a != [] {
      DigitsOfDigits(a[1..]);
    }
  }

  lemma {:induction false} DigitsAppend(a: string, b: string)
    requires IsClean(a) && IsClean(b)
    ensures IsClean(a + b)
    ensures Digits(a + b) == Digits(a) + Digits(b)
  {
    if a != [] {
      assert (a + b)[1..] == a[1..] + b;
      DigitsAppend(a[1..], b);
    } else {
      assert a + b == b;
    }
  }

  lemma {:induction false} FractionLengthAfterDigits(a: string, b: string)
    requires AllDigits(a)
    ensures FractionLength(a + b) == FractionLength(b)
  {
    if a != [] {
      assert (a + b)[1..] == a[1..] + b;
      FractionLengthAfterDigits(a[1..], b);
    } else {
      assert a + b == b;
    }
  }

  /** The value of the literal "a.b" is the digits of a and b over 10^|b|. */
  lemma {:induction false} PointLiteralValue(a: string, b: string)
    requires AllDigits(a) && AllDigits(b)
    ensures IsClean(a + ['.'] + b)
    ensures LiteralValue(a + ['.'] + b) == Decimal(DigitsValue(a + b), |b|)
  {
    var t := a + ['.'] + b;
    assert IsClean(a) && IsClean(b);
    DigitsOfDigits(a);
    DigitsOfDigits(b);
    DigitsAppend(a, ['.']);
    assert Digits(a + ['.']) == a;
    DigitsAppend(a + ['.'], b);
    assert Digits(t) == a + b;
    FractionLengthAfterDigits(a, ['.'] + b);
    assert t == a + (['.'] + b);
    assert FractionLength(t) == |b|;
  }

  /** The value of a dot-free literal is its digits over 1. */
  lemma {:induction false} IntegerLiteralValue(a: string)
    requires AllDigits(a)
    ensures IsClean(a)
    ensures LiteralValue(a) == Decimal(DigitsValue(a), 0)
  {
    DigitsOfDigits(a);
    FractionLengthAfterDigits(a, []);
    assert a + [] == a;
  }

  /**
   `ParseFloat` agrees with the reference definition: it is NaN exactly when no
   prefix of the input is a literal, and otherwise it is the value of the
   LONGEST literal prefix.
   */
  lemma {:induction false} ParseFloatIsLongestLiteral(s: string)
    requires IsClean(s)
    ensures ParseFloat(s).NaN? ==> forall m :: 0 <= m <= |s| ==> !IsLiteral(s[..m])
    ensures ParseFloat(s).Finite? ==>
      exists n :: 0 < n <= |s| && IsLiteral(s[..n]) && LiteralValue(s[..n]) == ParseFloat(s).d
        && forall m :: n < m <= |s| ==> !IsLiteral(s[..m])
  {
    var i := Span(s, IsDigit);
    if ParseFloat(s).NaN? {
      NoLiteralPrefix(s);
    } else if i == |s| {
      assert s[..|s|] == s && s[..i] + [] == s;
      assert ParseFloat(s).d == Decimal(DigitsValue(s), 0);
      WholeIntegerIsLiteral(s);
      assert IsLiteral(s[..|s|]);
    } else {
      var n := PointLiteralPrefix(s, i);
      assert LiteralValue(s[..n]) == ParseFloat(s).d;
    }
  }

  /** When `parseFloat` yields NaN, no prefix is a literal. */
  lemma {:induction false} NoLiteralPrefix(s: string)
    requires IsClean(s)
    requires |s| == 0 || (s[0] == '.' && (|s| == 1 || s[1] == '.'))
    ensures forall m :: 0 <= m <= |s| ==> !IsLiteral(s[..m])
  {
    forall m | 0 <= m <= |s|
      ensures !IsLiteral(s[..m])
    {
      if m >= 2 {
        assert s[..m][0] == '.' && s[..m][1] == '.';
      } else {
        assert forall k :: 0 <= k < m ==> s[..m][k] == '.';
      }
    }
  }

  /** A non-empty all-digit string is itself the longest literal, with scale 0. */
  lemma {:induction false} WholeIntegerIsLiteral(s: string)
    requires AllDigits(s) && |s| > 0
    ensures IsLiteral(s)
    ensures LiteralValue(s) == Decimal(DigitsValue(s), 0)
  {
    assert IsDigit(s[0]);
    IntegerLiteralValue(s);
  }

  /**
   When the digit run of `s` stops at index `i` (necessarily on a dot), the
   longest literal prefix ends at the next dot or the end of `s`.
   */
  lemma {:induction false} PointLiteralPrefix(s: string, i: nat) returns (n: nat)
    requires IsClean(s)
    requires i == Span(s, IsDigit) && i < |s|
    requires i > 0 || (|s| > 1 && s[1] != '.')
    ensures i < n <= |s|
    ensures IsLiteral(s[..n])
    ensures LiteralValue(s[..n]) == Decimal(DigitsValue(s[..i] + s[i + 1..][..Span(s[i + 1..], IsDigit)]),
                                            Span(s[i + 1..], IsDigit))
    ensures forall m :: n < m <= |s| ==> !IsLiteral(s[..m])
  {
    var rest := s[i + 1..];
    var f := Span(rest, IsDigit);
    var a, b := s[..i], rest[..f];
    n := i + 1 + f;
    assert s[i] == '.';
    assert s[..n] == a + ['.'] + b;
    forall p, q | 0 <= p < q < n
      ensures s[..n][p] != '.' || s[..n][q] != '.'
    {
      if p >= i {
        assert s[..n][q] == rest[q - i - 1];
      }
    }
    if i > 0 {
      assert IsDigit(s[..n][0]);
    } else {
      assert IsDigit(s[..n][1]);
    }
    PointLiteralValue(a, b);
    forall m | n < m <= |s|
      ensures !IsLiteral(s[..m])
    {
      assert s[n] == rest[f];
      assert s[..m][i] == '.' && s[..m][n] == '.';
    }
  }

  /** A string "a.b" with at least one digit parses to the digits of a and b over 10^|b|. */
  lemma {:induction false} ParsePointNumber(a: string, b: string)
    requires AllDigits(a) && AllDigits(b)
    requires |a| + |b| > 0
    ensures IsClean(a + ['.'] + b)
    ensures ParseFloat(a + ['.'] + b) == Finite(Decimal(DigitsValue(a + b), |b|))
  {
    var s := a + ['.'] + b;
    assert IsClean(s);
    assert s == a + (['.'] + b);
    SpanOfDigitsThenDot(a, ['.'] + b);
    assert s[|a| + 1..] == b;
    SpanOfDigitsThenDot(b, []);
    assert b + [] == b;
    assert s[..|a|] == a;
  }

  /** A dot after a complete fraction ends the number: "1.2.3" reads as 1.2. */
  lemma {:induction false} SecondDotEndsNumber(a: string, b: string, rest: string)
    requires AllDigits(a) && AllDigits(b) && IsClean(rest)
    requires |a| + |b| > 0
    ensures IsClean(a + ['.'] + b + ['.'] + rest)
    ensures ParseFloat(a + ['.'] + b + ['.'] + rest) == Finite(Decimal(DigitsValue(a + b), |b|))
  {
    var t := a + ['.'] + b + ['.'] + rest;
    assert IsClean(t);
    assert t == a + (['.'] + b + ['.'] + rest);
    SpanOfDigitsThenDot(a, ['.'] + b + ['.'] + rest);
    assert t[|a| + 1..] == b + (['.'] + rest);
    SpanOfDigitsThenDot(b, ['.'] + rest);
    assert t[..|a|] == a;
    assert t[|a| + 1..][..|b|] == b;
  }

  /** The digit span of digits followed by a non-digit (or nothing) is exactly the digits. */
  lemma {:induction false} SpanOfDigitsThenDot(a: string, b: string)
    requires AllDigits(a)
    requires b == [] || !IsDigit(b[0])
    ensures Span(a + b, IsDigit) == |a|
  {
    if a != [] {
      assert (a + b)[1..] == a[1..] + b;
      SpanOfDigitsThenDot(a[1..], b);
    } else {
      assert a + b == b;
    }
  }
}

=== FILE: extractor.dfy ===
/**
 The price extractor of workers/scraper.js: two ordered rule groups over a
 rendered page, first match wins.

 The browser page is an oracle: for each CSS selector it gives the first
 element the selector matches, if any. Selector matching itself is not modelled.
 */
module Extractor {
  import opened Wrappers
  import opened Text
  import opened Decimals

  type Selector = string

  /** What the extractor reads of an element: its `content` attribute (absent
      attributes read as null) and its `textContent`. */
  datatype Element = Element(content: Option<string>, text: string)

  /** `page.$(selector)`: the first matching element, or none. */
  type Page = Selector -> Option<Element>

  /**
   What `extractPrice` settles with: a finite number, NaN (a content rule whose
   numeric run does not parse, such as "."), null, or a rejection (a matched
   meta element without a `content` attribute makes `getAttribute` return null,
   and calling `replace` on it throws).
   */
  datatype PriceResult = Found(price: Decimal) | FoundNaN | NotFound | Threw

  /** One extraction rule: a meta-tag selector or a content selector. */
  datatype Rule = Meta(selector: Selector) | Content(selector: Selector)

  /** What a rule does on a page: passes to the next rule, or ends extraction. */
  datatype RuleOutcome = Skip | Yield(result: PriceResult)

  const MetaSelectors: seq<Selector> := [
    "meta[property=\"og:price:amount\"]",
    "meta[itemprop=\"lowPrice\"]",
    "meta[itemprop=\"price\"]",
    "meta[property=\"product:price:amount\"]"
  ]

  /** Site-specific selectors first, generic price-bearing patterns last. */
  const ContentSelectors: seq<Selector> := [
    ".gl-price-item--sale",
    ".product-price__highlight",
    "[class='current-sale-price']",
    "formatted-price-detail",
    "[data-tau-price=\"new\"]",
    "[data-selector=\"price-only\"]",
    "[class*='summary_salePrice']",
    "[class*='price__number price__number--sale']",
    "[data-price]",
    "[class*=\"promoPrice\"]",
    "[class*=\"price\"]",
    "[id*=\"price\"]",
    ".price",
    "#price"
  ]

  /** Every meta rule, in order, then every content rule, in order. */
  function RulesFor(metas: seq<Selector>, contents: seq<Selector>): (r: seq<Rule>)
    ensures |r| == |metas| + |contents|
    ensures forall k :: 0 <= k < |metas| ==> r[k] == Meta(metas[k])
    ensures forall k :: 0 <= k < |contents| ==> r[|metas| + k] == Content(contents[k])
  {
    seq(|metas|, k requires 0 <= k < |metas| => Meta(metas[k]))
    + seq(|contents|, k requires 0 <= k < |contents| => Content(contents[k]))
  }

  const PriceRules: seq<Rule> := RulesFor(MetaSelectors, ContentSelectors)

  /**
   A meta value with everything outside `[\d,.]` dropped and then every comma
   dropped: exactly the digits and dots of the value, in order.
   */
  function CleanMetaContent(s: string): (r: string)
    ensures r == Filter(s, IsDigitOrDot)
    ensures IsClean(r)
  {
    FilterTwice(s, IsPriceChar, IsNotComma, IsDigitOrDot);
    Filter(Filter(s, IsPriceChar), IsNotComma)
  }

  /**
   `text.match(/[\d,.]+/)`: the bounds [start, end) of the leftmost maximal run
   of digits, commas and dots, or none when the text has no such character.
   */
  function FirstRun(text: string): (r: Option<(nat, nat)>)
    ensures r.None? <==> forall i :: 0 <= i < |text| ==> !IsPriceChar(text[i])
    ensures r.Some? ==>
      && r.value.0 < r.value.1 <= |text|
      && (forall i :: 0 <= i < r.value.0 ==> !IsPriceChar(text[i]))
      && (forall i :: r.value.0 <= i < r.value.1 ==> IsPriceChar(text[i]))
      && (r.value.1 == |text| || !IsPriceChar(text[r.value.1]))
  {
    var start := Span(text, IsNotPriceChar);
    if start == |text| then None
    else
      var len := Span(text[start..], IsPriceChar);
      assert text[start..][0] == text[start];
      assert forall i :: start <= i < start + len ==> text[i] == text[start..][i - start];
      Some((start, start + len))
  }

  /** `match[0]`: the text of the leftmost run. */
  function RunText(text: string): (r: string)
    requires FirstRun(text).Some?
    ensures |r| > 0 && forall i :: 0 <= i < |r| ==> IsPriceChar(r[i])
  {
    var b := FirstRun(text).value;
    text[b.0..b.1]
  }

  /** A run of `[\d,.]` with its commas removed is a digits-and-dots string. */
  function StripCommas(run: string): (r: string)
    requires forall i :: 0 <= i < |run| ==> IsPriceChar(run[i])
    ensures IsClean(r)
    ensures forall i :: 0 <= i < |r| ==> r[i] != ','
  {
    FilterKeeps(run, IsNotComma, IsPriceChar);
    Filter(run, IsNotComma)
  }

  /**
   A meta rule: absent element passes; element without `content` throws; a
   value that parses ends extraction with that value; one that does not passes.
   */
  function MetaOutcome(page: Page, selector: Selector): (r: RuleOutcome)
    ensures page(selector).None? ==> r == Skip
    ensures r.Yield? ==> r.result.Found? || r.result.Threw?
    ensures r.Yield? && r.result.Found? ==>
      && page(selector).Some? && page(selector).value.content.Some?
      && ParseFloat(Filter(page(selector).value.content.value, IsDigitOrDot)) == Finite(r.result.price)
    ensures r == Yield(Threw) <==> page(selector).Some? && page(selector).value.content.None?
    ensures r.Skip? <==> (page(selector).None? ||
      (page(selector).value.content.Some? && ParseFloat(Filter(page(selector).value.content.value, IsDigitOrDot)).NaN?))
  {
    match page(selector)
    case None => Skip
    case Some(el) =>
      match el.content
      case None => Yield(Threw)
      case Some(c) =>
        match ParseFloat(CleanMetaContent(c))
        case Finite(d) => Yield(Found(d))
        case NaN => Skip
  }

  /**
   A content rule: an absent element, or one whose text has no `[\d,.]` run,
   passes; otherwise the leftmost run without its commas is parsed and returned
   whatever it parses to, NaN included.
   */
  function ContentOutcome(page: Page, selector: Selector): (r: RuleOutcome)
    ensures r.Skip? <==> (page(selector).None? ||
      forall i :: 0 <= i < |page(selector).value.text| ==> !IsPriceChar(page(selector).value.text[i]))
    ensures r.Yield? ==> r.result.Found? || r.result.FoundNaN?
    ensures r.Yield? ==>
      && (r.result.FoundNaN? <==> ParseFloat(StripCommas(RunText(page(selector).value.text))).NaN?)
      && (r.result.Found? ==> ParseFloat(StripCommas(RunText(page(selector).value.text))) == Finite(r.result.price))
  {
    match page(selector)
    case None => Skip
    case Some(el) =>
      if FirstRun(el.text).None? then Skip
      else
        match ParseFloat(StripCommas(RunText(el.text)))
        case Finite(d) => Yield(Found(d))
        case NaN => Yield(FoundNaN)
  }

  function Apply(page: Page, rule: Rule): (r: RuleOutcome)
    ensures r.Yield? ==> !r.result.NotFound?
  {
    match rule
    case Meta(s) => MetaOutcome(page, s)
    case Content(s) => ContentOutcome(page, s)
  }

  /**
   The result of the first rule that does not pass, or null when every rule
   passes.
   */
  function FirstYield(page: Page, rules: seq<Rule>): (r: PriceResult)
    ensures r.NotFound? <==> forall k :: 0 <= k < |rules| ==> Apply(page, rules[k]).Skip?
    ensures !r.NotFound? ==>
      exists k :: 0 <= k < |rules| && Apply(page, rules[k]) == Yield(r)
        && forall j :: 0 <= j < k ==> Apply(page, rules[j]).Skip?
  {
    if rules == [] then NotFound
    else
      match Apply(page, rules[0])
      case Yield(x) => x
      case Skip =>
        var r := FirstYield(page, rules[1..]);
        assert forall k :: 1 <= k < |rules| ==> rules[k] == rules[1..][k - 1];
        r
  }

  /**
   `extractPrice(page)`: null exactly when no meta rule yields and every
   content element is absent or has no digit, comma or dot; otherwise the
   result of the first rule, meta rules before content rules, that does not
   pass.
   */
  function ExtractPrice(page: Page): (r: PriceResult)
    ensures r.NotFound? <==>
      (forall j :: 0 <= j < |MetaSelectors| ==> MetaOutcome(page, MetaSelectors[j]).Skip?)
      && (forall j :: 0 <= j < |ContentSelectors| ==>
            page(ContentSelectors[j]).None? ||
            forall i :: 0 <= i < |page(ContentSelectors[j]).value.text| ==>
              !IsPriceChar(page(ContentSelectors[j]).value.text[i]))
    ensures !r.NotFound? ==>
      exists k :: 0 <= k < |PriceRules| && Apply(page, PriceRules[k]) == Yield(r)
        && forall j :: 0 <= j < k ==> Apply(page, PriceRules[j]).Skip?
  {
    NotFoundIffNoRuleApplies(page);
    FirstYield(page, PriceRules)
  }

  /** The rule at position `k` decides, when every rule before it passes. */
  lemma {:induction false} FirstYieldAt(page: Page, rules: seq<Rule>, k: nat)
    requires k < |rules|
    requires forall j :: 0 <= j < k ==> Apply(page, rules[j]).Skip?
    requires Apply(page, rules[k]).Yield?
    ensures FirstYield(page, rules) == Apply(page, rules[k]).result
  {
    var r := FirstYield(page, rules);
    assert !r.NotFound?;
    var k' :| 0 <= k' < |rules| && Apply(page, rules[k']) == Yield(r)
      && forall j :: 0 <= j < k' ==> Apply(page, rules[j]).Skip?;
    assert k' == k;
  }

  /**
   First match wins across groups: when a meta rule yields, the content of the
   page outside the meta selectors cannot change the result.
   */
  lemma {:induction false} MetaWinsOverContent(page: Page, other: Page, k: nat)
    requires k < |MetaSelectors|
    requires forall s :: s in MetaSelectors ==> page(s) == other(s)
    requires forall j :: 0 <= j < k ==> MetaOutcome(page, MetaSelectors[j]).Skip?
    requires MetaOutcome(page, MetaSelectors[k]).Yield?
    ensures ExtractPrice(page) == ExtractPrice(other) == MetaOutcome(page, MetaSelectors[k]).result
  {
    forall j | 0 <= j <= k
      ensures Apply(page, PriceRules[j]) == Apply(other, PriceRules[j]) == MetaOutcome(page, MetaSelectors[j])
    {
      assert PriceRules[j] == Meta(MetaSelectors[j]);
      assert MetaSelectors[j] in MetaSelectors;
      MetaOutcomeIsLocal(page, other, MetaSelectors[j]);
    }
    FirstYieldAt(page, PriceRules, k);
    FirstYieldAt(other, PriceRules, k);
  }

  /** A meta rule reads the page only through its own selector. */
  lemma MetaOutcomeIsLocal(page: Page, other: Page, selector: Selector)
    requires page(selector) == other(selector)
    ensures MetaOutcome(page, selector) == MetaOutcome(other, selector)
  {
  }

  /**
   When no meta rule yields, the result is that of the first content rule that
   yields, or null when none does.
   */
  lemma {:induction false} ContentAfterMeta(page: Page)
    requires forall j :: 0 <= j < |MetaSelectors| ==> MetaOutcome(page, MetaSelectors[j]).Skip?
    ensures ExtractPrice(page) == FirstYield(page, PriceRules[|MetaSelectors|..])
  {
    SkipPrefix(page, PriceRules, |MetaSelectors|);
  }

  /** Rules that all pass can be dropped from the front of the list. */
  lemma {:induction false} SkipPrefix(page: Page, rules: seq<Rule>, n: nat)
    requires n <= |rules|
    requires forall j :: 0 <= j < n ==> Apply(page, rules[j]).Skip?
    ensures FirstYield(page, rules) == FirstYield(page, rules[n..])
  {
    if n > 0 {
      assert rules[1..][n - 1..] == rules[n..];
      SkipPrefix(page, rules[1..], n - 1);
    }
  }

  /**
   Extraction yields null exactly when every meta element is absent or has an
   unparseable value and every content element is absent or holds no digit,
   comma or dot.
   */
  lemma {:induction false} NotFoundIffNoRuleApplies(page: Page)
    ensures FirstYield(page, PriceRules).NotFound? <==>
      (forall j :: 0 <= j < |MetaSelectors| ==> MetaOutcome(page, MetaSelectors[j]).Skip?)
      && (forall j :: 0 <= j < |ContentSelectors| ==>
            page(ContentSelectors[j]).None? ||
            forall i :: 0 <= i < |page(ContentSelectors[j]).value.text| ==>
              !IsPriceChar(page(ContentSelectors[j]).value.text[i]))
  {
    var n := |MetaSelectors|;
    assert forall j :: 0 <= j < |ContentSelectors| ==> PriceRules[n + j] == Content(ContentSelectors[j]);
    assert forall j :: 0 <= j < n ==> PriceRules[j] == Meta(MetaSelectors[j]);
    if !FirstYield(page, PriceRules).NotFound? {
      var k :| 0 <= k < |PriceRules| && Apply(page, PriceRules[k]).Yield?;
      if k >= n {
        assert Apply(page, PriceRules[k]) == ContentOutcome(page, ContentSelectors[k - n]);
      }
    }
  }
}

=== FILE: extractor_examples.dfy ===
/**
 The extractor on the pages of tests/scraper.test.js, each page described by
 the elements its selectors match, plus two edge cases of the code the tests do
 not cover (a run that parses to NaN and a meta tag without `content`).
 */
module ExtractorExamples {
  import opened Wrappers
  import opened Text
  import opened Decimals
  import opened Extractor

  const OgPrice: Selector := MetaSelectors[0]
  const ClassHasPrice: Selector := ContentSelectors[10]

  /** No meta selector matches anything on the page. */
  predicate NoMeta(page: Page) {
    forall j :: 0 <= j < |MetaSelectors| ==> page(MetaSelectors[j]).None?
  }

  /** None of the first `n` content selectors matches anything on the page. */
  predicate NoContentBefore(page: Page, n: nat) {
    forall j :: 0 <= j < n && j < |ContentSelectors| ==> page(ContentSelectors[j]).None?
  }

  /** On such a page every rule before content rule `n` passes. */
  lemma {:induction false} SkipsBeforeContent(page: Page, n: nat)
    requires n <= |ContentSelectors|
    requires NoMeta(page) && NoContentBefore(page, n)
    ensures forall j :: 0 <= j < |MetaSelectors| + n ==> Apply(page, PriceRules[j]).Skip?
  {
    var m := |MetaSelectors|;
    forall j | 0 <= j < m
      ensures Apply(page, PriceRules[j]).Skip?
    {
      assert PriceRules[j] == Meta(MetaSelectors[j]);
    }
    forall j | m <= j < m + n
      ensures Apply(page, PriceRules[j]).Skip?
    {
      assert PriceRules[j] == Content(ContentSelectors[j - m]);
    }
  }

  lemma Value9999(v: string)
    requires v == "9999"
    ensures AllDigits(v) && DigitsValue(v) == 9999
  {
    assert DigitsValue("9") == 9;
    assert "99"[..1] == "9";
    assert "999"[..2] == "99";
    assert "9999"[..3] == "999";
  }

  lemma Value9999999(v: string)
    requires v == "9999999"
    ensures AllDigits(v) && DigitsValue(v) == 9999999
  {
    Value9999("9999");
    assert "99999"[..4] == "9999";
    assert "999999"[..5] == "99999";
    assert "9999999"[..6] == "999999";
  }

  lemma Value129999(v: string)
    requires v == "129999"
    ensures AllDigits(v) && DigitsValue(v) == 129999
  {
    assert DigitsValue("1") == 1;
    assert "12"[..1] == "1";
    assert "129"[..2] == "12";
    assert "1299"[..3] == "129";
    assert "12999"[..4] == "1299";
    assert "129999"[..5] == "12999";
  }

  lemma CleanKeepsDigitsAndDots(v: string)
    requires IsClean(v)
    ensures CleanMetaContent(v) == v
  {
  }

  lemma Parse99Point99(v: string)
    requires v == "99.99"
    ensures IsClean(v) && ParseFloat(v) == Finite(Decimal(9999, 2))
  {
    ParsePointNumber("99", "99");
    assert "99" + ['.'] + "99" == v;
    Value9999("99" + "99");
  }

  /**
   <meta property="og:price:amount" content="99.99"> beside
   <div class="price">$129.99</div>: the meta value wins, 99.99.
   */
  lemma MetaBeatsContentExample(page: Page)
    requires page(OgPrice) == Some(Element(Some("99.99"), ""))
    requires page(ClassHasPrice) == Some(Element(None, "$129.99"))
    ensures ExtractPrice(page) == Found(Decimal(9999, 2))
  {
    var v := page(OgPrice).value.content.value;
    Parse99Point99(v);
    CleanKeepsDigitsAndDots(v);
    assert PriceRules[0] == Meta(OgPrice);
    FirstYieldAt(page, PriceRules, 0);
  }

  /** Filtering out one rejected character between kept ones joins the two sides. */
  lemma {:induction false} FilterDropsOne(a: string, c: char, b: string, keep: char -> bool)
    requires forall i :: 0 <= i < |a| ==> keep(a[i])
    requires forall i :: 0 <= i < |b| ==> keep(b[i])
    requires !keep(c)
    ensures Filter(a + [c] + b, keep) == a + b
  {
    var cb := [c] + b;
    FilterAppend(a, cb, keep);
    assert a + [c] + b == a + cb;
    assert cb[0] == c && cb[1..] == b;
    assert Filter(cb, keep) == Filter(b, keep) == b;
    assert Filter(a, keep) == a;
  }

  lemma CleanCommaValue(v: string)
    requires v == "99,999.99"
    ensures CleanMetaContent(v) == "99999.99"
  {
    FilterDropsOne("99", ',', "999.99", IsDigitOrDot);
    assert v == "99" + [','] + "999.99";
    assert "99" + "999.99" == "99999.99";
  }

  lemma Parse99999Point99(v: string)
    requires v == "99999.99"
    ensures IsClean(v) && ParseFloat(v) == Finite(Decimal(9999999, 2))
  {
    ParsePointNumber("99999", "99");
    assert "99999" + ['.'] + "99" == v;
    Value9999999("99999" + "99");
  }

  /**
   <meta property="og:price:amount" content="99,999.99">: the comma is dropped
   and the value is 99999.99.
   */
  lemma MetaCommaExample(page: Page)
    requires page(OgPrice) == Some(Element(Some("99,999.99"), ""))
    ensures ExtractPrice(page) == Found(Decimal(9999999, 2))
  {
    var v := page(OgPrice).value.content.value;
    CleanCommaValue(v);
    Parse99999Point99(CleanMetaContent(v));
    assert PriceRules[0] == Meta(OgPrice);
    FirstYieldAt(page, PriceRules, 0);
  }

  lemma RunOfDollarPrice(text: string)
    requires text == "$1,299.99"
    ensures FirstRun(text).Some? && RunText(text) == "1,299.99"
  {
    assert !IsPriceChar(text[0]) && IsPriceChar(text[1]);
    assert forall i :: 1 <= i < |text| ==> IsPriceChar(text[i]);
    assert FirstRun(text) == Some((1, 9));
    assert text[1..9] == "1,299.99";
  }

  lemma StripThousands(run: string)
    requires run == "1,299.99"
    ensures forall i :: 0 <= i < |run| ==> IsPriceChar(run[i])
    ensures StripCommas(run) == "1299.99"
  {
    FilterDropsOne("1", ',', "299.99", IsNotComma);
    assert run == "1" + [','] + "299.99";
    assert "1" + "299.99" == "1299.99";
  }

  lemma Parse1299Point99(v: string)
    requires v == "1299.99"
    ensures IsClean(v) && ParseFloat(v) == Finite(Decimal(129999, 2))
  {
    ParsePointNumber("1299", "99");
    assert "1299" + ['.'] + "99" == v;
    Value129999("1299" + "99");
  }

  lemma DollarPriceRule(page: Page)
    requires page(ClassHasPrice) == Some(Element(None, "$1,299.99"))
    ensures ContentOutcome(page, ClassHasPrice) == Yield(Found(Decimal(129999, 2)))
  {
    var text := page(ClassHasPrice).value.text;
    RunOfDollarPrice(text);
    StripThousands(RunText(text));
    Parse1299Point99(StripCommas(RunText(text)));
  }

  /** <div class="price">$1,299.99</div>: the run "1,299.99" reads as 1299.99. */
  lemma ContentCommaExample(page: Page)
    requires NoMeta(page) && NoContentBefore(page, 10)
    requires page(ClassHasPrice) == Some(Element(None, "$1,299.99"))
    ensures ExtractPrice(page) == Found(Decimal(129999, 2))
  {
    DollarPriceRule(page);
    SkipsBeforeContent(page, 10);
    assert PriceRules[|MetaSelectors| + 10] == Content(ClassHasPrice);
    FirstYieldAt(page, PriceRules, |MetaSelectors| + 10);
  }

  /**
   Text that is a dollar sign followed by digits and dots: the run is all of it
   after the sign, there is no comma to strip, and the rule yields whatever the
   run parses to.
   */
  lemma {:induction false} DollarRule(page: Page, sel: Selector, run: string, d: Decimal)
    requires page(sel) == Some(Element(None, ['$'] + run))
    requires |run| > 0 && IsClean(run)
    requires ParseFloat(run) == Finite(d)
    ensures ContentOutcome(page, sel) == Yield(Found(d))
  {
    DollarRun(run);
    NoCommaToStrip(run);
  }

  /** In "$" followed by digits and dots, the run is everything after the sign. */
  lemma DollarRun(run: string)
    requires |run| > 0 && IsClean(run)
    ensures FirstRun(['$'] + run).Some? && RunText(['$'] + run) == run
  {
    var text := ['$'] + run;
    assert forall i :: 1 <= i < |text| ==> text[i] == run[i - 1];
    assert !IsPriceChar(text[0]) && IsPriceChar(text[1]);
    assert forall i :: 1 <= i < |text| ==> IsPriceChar(text[i]);
    assert FirstRun(text) == Some((1, |text|));
    assert text[1..|text|] == run;
  }

  lemma NoCommaToStrip(run: string)
    requires IsClean(run)
    ensures StripCommas(run) == run
  {
    assert Filter(run, IsNotComma) == run;
  }

  lemma Value14999(v: string)
    requires v == "14999"
    ensures AllDigits(v) && DigitsValue(v) == 14999
  {
    assert DigitsValue("1") == 1;
    assert "14"[..1] == "1";
    assert "149"[..2] == "14";
    assert "1499"[..3] == "149";
    assert "14999"[..4] == "1499";
  }

  lemma Parse149Point99(v: string)
    requires v == "149.99"
    ensures IsClean(v) && ParseFloat(v) == Finite(Decimal(14999, 2))
  {
    ParsePointNumber("149", "99");
    assert "149" + ['.'] + "99" == v;
    Value14999("149" + "99");
  }

  /** <div data-price="149.99">$149.99</div>: the `[data-price]` rule reads the text, 149.99. */
  lemma DataPriceExample(page: Page)
    requires NoMeta(page) && NoContentBefore(page, 8)
    requires page(ContentSelectors[8]) == Some(Element(None, "$149.99"))
    ensures ExtractPrice(page) == Found(Decimal(14999, 2))
  {
    var run := "149.99";
    Parse149Point99(run);
    assert ['$'] + run == "$149.99";
    DollarRule(page, ContentSelectors[8], run, Decimal(14999, 2));
    SkipsBeforeContent(page, 8);
    assert PriceRules[|MetaSelectors| + 8] == Content(ContentSelectors[8]);
    FirstYieldAt(page, PriceRules, |MetaSelectors| + 8);
  }

  lemma Value19999(v: string)
    requires v == "19999"
    ensures AllDigits(v) && DigitsValue(v) == 19999
  {
    assert DigitsValue("1") == 1;
    assert "19"[..1] == "1";
    assert "199"[..2] == "19";
    assert "1999"[..3] == "199";
    assert "19999"[..4] == "1999";
  }

  lemma Parse199Point99(v: string)
    requires v == "199.99"
    ensures IsClean(v) && ParseFloat(v) == Finite(Decimal(19999, 2))
  {
    ParsePointNumber("199", "99");
    assert "199" + ['.'] + "99" == v;
    Value19999("199" + "99");
  }

  /** <div class="product-price">$199.99</div>: matched by `[class*="price"]`, 199.99. */
  lemma ClassContainsPriceExample(page: Page)
    requires NoMeta(page) && NoContentBefore(page, 10)
    requires page(ClassHasPrice) == Some(Element(None, "$199.99"))
    ensures ExtractPrice(page) == Found(Decimal(19999, 2))
  {
    var run := "199.99";
    Parse199Point99(run);
    assert ['$'] + run == "$199.99";
    DollarRule(page, ClassHasPrice, run, Decimal(19999, 2));
    SkipsBeforeContent(page, 10);
    assert PriceRules[|MetaSelectors| + 10] == Content(ClassHasPrice);
    FirstYieldAt(page, PriceRules, |MetaSelectors| + 10);
  }

  /** <div>No price here</div>: no selector matches anything; the result is null. */
  lemma NoPriceExample(page: Page)
    requires NoMeta(page) && NoContentBefore(page, |ContentSelectors|)
    ensures ExtractPrice(page) == NotFound
  {
    SkipsBeforeContent(page, |ContentSelectors|);
  }

  /**
   <div class="price">No price here</div>: the generic rules find an element
   with no digit, comma or dot and pass; the result is still null.
   */
  lemma TextWithoutDigitsExample(page: Page)
    requires NoMeta(page)
    requires forall j :: 0 <= j < |ContentSelectors| ==>
      page(ContentSelectors[j]).None? || page(ContentSelectors[j]) == Some(Element(None, "No price here"))
    ensures ExtractPrice(page) == NotFound
  {
    var t := "No price here";
    assert forall i :: 0 <= i < |t| ==> !IsPriceChar(t[i]);
    NotFoundIffNoRuleApplies(page);
  }

  lemma DotRunRule(page: Page)
    requires page(ClassHasPrice) == Some(Element(None, "."))
    ensures ContentOutcome(page, ClassHasPrice) == Yield(FoundNaN)
  {
    var text := page(ClassHasPrice).value.text;
    assert FirstRun(text) == Some((0, 1));
    assert RunText(text) == text[0..1] == text;
    assert Filter(text, IsNotComma) == text;
  }

  /**
   <span class="price">.</span> ahead of a later element holding "$5": the
   first run is ".", which parses to NaN, and extraction stops there with NaN.
   */
  lemma NaNRunStopsExtraction(page: Page)
    requires NoMeta(page) && NoContentBefore(page, 10)
    requires page(ClassHasPrice) == Some(Element(None, "."))
    requires page(ContentSelectors[11]) == Some(Element(None, "$5"))
    ensures ExtractPrice(page) == FoundNaN
  {
    DotRunRule(page);
    SkipsBeforeContent(page, 10);
    assert PriceRules[|MetaSelectors| + 10] == Content(ClassHasPrice);
    FirstYieldAt(page, PriceRules, |MetaSelectors| + 10);
  }

  /**
   <meta itemprop="price"> with no content attribute: reading it throws, even
   though a content element holds a price.
   */
  lemma MetaWithoutContentThrows(page: Page)
    requires page(MetaSelectors[0]).None? && page(MetaSelectors[1]).None?
    requires page(MetaSelectors[2]) == Some(Element(None, ""))
    requires page(ClassHasPrice) == Some(Element(None, "$5"))
    ensures ExtractPrice(page) == Threw
  {
    assert PriceRules[0] == Meta(MetaSelectors[0]);
    assert PriceRules[1] == Meta(MetaSelectors[1]);
    assert PriceRules[2] == Meta(MetaSelectors[2]);
    FirstYieldAt(page, PriceRules, 2);
  }
}

=== FILE: notifier.dfy ===
/**
 `sendPriceAlert` (services/notificationService.js): the notifications table
 as an append-only ledger that keeps a price-drop alert from being sent twice
 for the same item at the same price.

 The Telegram delivery is an input: `delivered` says whether `sendMessage`
 went through. Message formatting is not modelled.
 */
module Notifier {
  import opened Records

  datatype AlertOutcome = Suppressed | Delivered | DeliveryFailed

  datatype AlertResult = AlertResult(ledger: seq<Notification>, outcome: AlertOutcome)

  /**
   The lookup before sending: some 'price_drop' record for this item at
   exactly this price, however long ago it was sent.
   */
  predicate AlreadyAlerted(ledger: seq<Notification>, itemId: Id, price: real) {
    exists k :: 0 <= k < |ledger| && ledger[k].itemId == itemId && ledger[k].price == price
      && ledger[k].kind == PriceDropKind
  }

  /**
   `sendPriceAlert(item, price)` at time `now`: suppressed exactly when an
   earlier alert exists for the pair; otherwise the message is sent and, only
   once it has gone through, one record is appended. A failed send leaves no
   trace, so the next call tries again.
   */
  function SendPriceAlert(ledger: seq<Notification>, itemId: Id, price: real, now: Time, delivered: bool): (r: AlertResult)
    ensures r.outcome.Suppressed? <==> AlreadyAlerted(ledger, itemId, price)
    ensures r.outcome.Delivered? <==> !AlreadyAlerted(ledger, itemId, price) && delivered
    ensures r.outcome.Delivered? ==> r.ledger == ledger + [Notification(itemId, price, now, PriceDropKind)]
    ensures !r.outcome.Delivered? ==> r.ledger == ledger
    ensures AlreadyAlerted(r.ledger, itemId, price) <==> AlreadyAlerted(ledger, itemId, price) || r.outcome.Delivered?
  {
    if AlreadyAlerted(ledger, itemId, price) then AlertResult(ledger, Suppressed)
    else if !delivered then AlertResult(ledger, DeliveryFailed)
    else
      var l := ledger + [Notification(itemId, price, now, PriceDropKind)];
      assert l[|ledger|] == Notification(itemId, price, now, PriceDropKind);
      AlertResult(l, Delivered)
  }

  /** Appending a record leaves the alerted status of every other pair as it was. */
  lemma {:induction false} OtherPairsUnaffected(ledger: seq<Notification>, n: Notification, itemId: Id, price: real)
    requires n.itemId != itemId || n.price != price
    ensures AlreadyAlerted(ledger + [n], itemId, price) <==> AlreadyAlerted(ledger, itemId, price)
  {
    var l := ledger + [n];
    if AlreadyAlerted(l, itemId, price) {
      var k :| 0 <= k < |l| && l[k].itemId == itemId && l[k].price == price && l[k].kind == PriceDropKind;
      assert k < |ledger| && l[k] == ledger[k];
    }
    if AlreadyAlerted(ledger, itemId, price) {
      var k :| 0 <= k < |ledger| && ledger[k].itemId == itemId && ledger[k].price == price
        && ledger[k].kind == PriceDropKind;
      assert l[k] == ledger[k];
    }
  }

  /** One attempt to alert: the pair, the time, and whether delivery would succeed. */
  datatype AlertCall = AlertCall(itemId: Id, price: real, at: Time, delivered: bool)

  datatype AlertRun = AlertRun(ledger: seq<Notification>, outcomes: seq<AlertOutcome>)

  /** A series of `sendPriceAlert` calls, one after another, on a shared ledger. */
  function RunAlerts(ledger: seq<Notification>, calls: seq<AlertCall>): (r: AlertRun)
    ensures |r.outcomes| == |calls|
    ensures |ledger| <= |r.ledger| <= |ledger| + |calls| && r.ledger[..|ledger|] == ledger
    decreases |calls|
  {
    if calls == [] then AlertRun(ledger, [])
    else
      var c := calls[0];
      var first := SendPriceAlert(ledger, c.itemId, c.price, c.at, c.delivered);
      var rest := RunAlerts(first.ledger, calls[1..]);
      assert rest.ledger[..|ledger|] == rest.ledger[..|first.ledger|][..|ledger|];
      AlertRun(rest.ledger, [first.outcome] + rest.outcomes)
  }

  /** How many of `calls` for the pair were delivered. */
  function DeliveredFor(calls: seq<AlertCall>, outcomes: seq<AlertOutcome>, itemId: Id, price: real): (n: nat)
    requires |outcomes| == |calls|
    ensures n <= |calls|
    decreases |calls|
  {
    if calls == [] then 0
    else
      var here := if calls[0].itemId == itemId && calls[0].price == price && outcomes[0].Delivered? then 1 else 0;
      here + DeliveredFor(calls[1..], outcomes[1..], itemId, price)
  }

  /**
   Over calls that run one after another, however often delivery fails, an
   item is alerted at most once per price, and never when the ledger already
   holds an alert for that price.
   */
  lemma {:induction false} AtMostOneAlertPerPrice(ledger: seq<Notification>, calls: seq<AlertCall>, itemId: Id, price: real)
    ensures DeliveredFor(calls, RunAlerts(ledger, calls).outcomes, itemId, price)
      <= if AlreadyAlerted(ledger, itemId, price) then 0 else 1
    decreases |calls|
  {
    if calls != [] {
      var c := calls[0];
      var first := SendPriceAlert(ledger, c.itemId, c.price, c.at, c.delivered);
      var run := RunAlerts(ledger, calls);
      assert run.outcomes[1..] == RunAlerts(first.ledger, calls[1..]).outcomes;
      assert run.outcomes[0] == first.outcome;
      AtMostOneAlertPerPrice(first.ledger, calls[1..], itemId, price);
      if !(c.itemId == itemId && c.price == price) && first.outcome.Delivered? {
        OtherPairsUnaffected(ledger, Notification(c.itemId, c.price, c.at, PriceDropKind), itemId, price);
      }
    }
  }

  /**
   The lookup and the insert are separate statements with the send between
   them. Two calls for the same pair that overlap, both looking up the ledger
   before either inserts, both send: the pair is alerted twice.
   */
  lemma {:induction false} OverlappingCallsBothDeliver(ledger: seq<Notification>, itemId: Id, price: real, t1: Time, t2: Time)
    requires !AlreadyAlerted(ledger, itemId, price)
    ensures SendPriceAlert(ledger, itemId, price, t1, true).outcome == Delivered
    ensures SendPriceAlert(ledger, itemId, price, t2, true).outcome == Delivered
  {
  }

  /**
   Once an alert is on the ledger for a pair, it stays there through any
   further calls.
   */
  lemma {:induction false} AlertsPersist(ledger: seq<Notification>, calls: seq<AlertCall>, itemId: Id, price: real)
    requires AlreadyAlerted(ledger, itemId, price)
    ensures AlreadyAlerted(RunAlerts(ledger, calls).ledger, itemId, price)
  {
    var l := RunAlerts(ledger, calls).ledger;
    var k :| 0 <= k < |ledger| && ledger[k].itemId == itemId && ledger[k].price == price
      && ledger[k].kind == PriceDropKind;
    assert l[k] == l[..|ledger|][k];
  }

  /** A call whose delivery goes through leaves its pair on the ledger, whatever follows it. */
  lemma {:induction false} DeliverableCallRecorded(ledger: seq<Notification>, calls: seq<AlertCall>, k: nat)
    requires k < |calls| && calls[k].delivered
    ensures AlreadyAlerted(RunAlerts(ledger, calls).ledger, calls[k].itemId, calls[k].price)
    decreases |calls|
  {
    var c := calls[0];
    var first := SendPriceAlert(ledger, c.itemId, c.price, c.at, c.delivered);
    assert RunAlerts(ledger, calls).ledger == RunAlerts(first.ledger, calls[1..]).ledger;
    if k == 0 {
      AlertsPersist(first.ledger, calls[1..], c.itemId, c.price);
    } else {
      assert calls[1..][k - 1] == calls[k];
      DeliverableCallRecorded(first.ledger, calls[1..], k - 1);
    }
  }

  /** `n` is the record a call appends when its delivery goes through. */
  predicate RecordedBy(n: Notification, c: AlertCall) {
    c.delivered && n == Notification(c.itemId, c.price, c.at, PriceDropKind)
  }

  /** `n` is the record of one of `calls` whose outcome is `Delivered`. */
  predicate FromDeliveredCall(n: Notification, calls: seq<AlertCall>, outcomes: seq<AlertOutcome>) {
    exists k :: 0 <= k < |calls| && k < |outcomes| && outcomes[k] == Delivered && RecordedBy(n, calls[k])
  }

  /**
   Every record a series of calls appends is a price-drop alert for one of the
   calls, at its time, and that call's outcome is `Delivered`.
   */
  lemma {:induction false} RecordsComeFromCalls(ledger: seq<Notification>, calls: seq<AlertCall>)
    ensures forall j :: |ledger| <= j < |RunAlerts(ledger, calls).ledger| ==>
      FromDeliveredCall(RunAlerts(ledger, calls).ledger[j], calls, RunAlerts(ledger, calls).outcomes)
    decreases |calls|
  {
    if calls != [] {
      var c := calls[0];
      var first := SendPriceAlert(ledger, c.itemId, c.price, c.at, c.delivered);
      var run := RunAlerts(ledger, calls);
      var rest := RunAlerts(first.ledger, calls[1..]);
      var l := run.ledger;
      assert l == rest.ledger;
      assert run.outcomes == [first.outcome] + rest.outcomes;
      RecordsComeFromCalls(first.ledger, calls[1..]);
      forall j | |ledger| <= j < |l|
        ensures FromDeliveredCall(l[j], calls, run.outcomes)
      {
        if j < |first.ledger| {
          assert l[j] == l[..|first.ledger|][j] == first.ledger[j];
          assert run.outcomes[0] == Delivered && RecordedBy(l[j], calls[0]);
        } else {
          assert l[j] == rest.ledger[j];
          var k :| 0 <= k < |calls[1..]| && k < |rest.outcomes| && rest.outcomes[k] == Delivered
            && RecordedBy(l[j], calls[1..][k]);
          assert calls[1..][k] == calls[k + 1] && run.outcomes[k + 1] == rest.outcomes[k];
        }
      }
    } else {
      assert RunAlerts(ledger, calls).ledger == ledger;
    }
  }

  /**
   Every record a series of calls appends is for a pair that had no
   `price_drop` record before it, neither an old one nor one appended earlier
   in the series: the lookup comes before the insert.
   */
  lemma {:induction false} NewRecordsFresh(ledger: seq<Notification>, calls: seq<AlertCall>)
    ensures forall j :: |ledger| <= j < |RunAlerts(ledger, calls).ledger| ==>
      var l := RunAlerts(ledger, calls).ledger;
      !AlreadyAlerted(l[..j], l[j].itemId, l[j].price)
    decreases |calls|
  {
    if calls != [] {
      var c := calls[0];
      var first := SendPriceAlert(ledger, c.itemId, c.price, c.at, c.delivered);
      var l := RunAlerts(ledger, calls).ledger;
      assert l == RunAlerts(first.ledger, calls[1..]).ledger;
      NewRecordsFresh(first.ledger, calls[1..]);
      if |ledger| < |first.ledger| {
        var j := |ledger|;
        assert l[..j] == l[..|first.ledger|][..j] == ledger;
        assert l[j] == l[..|first.ledger|][j] == Notification(c.itemId, c.price, c.at, PriceDropKind);
      }
    } else {
      assert RunAlerts(ledger, calls).ledger == ledger;
    }
  }

  /** No two `price_drop` records are for the same item at the same price. */
  predicate NoDuplicateAlerts(ledger: seq<Notification>) {
    forall i, j :: 0 <= i < j < |ledger| && ledger[i].kind == PriceDropKind && ledger[j].kind == PriceDropKind ==>
      ledger[i].itemId != ledger[j].itemId || ledger[i].price != ledger[j].price
  }

  /** Calls that run one after another keep a ledger free of duplicate alerts. */
  lemma {:induction false} RunAlertsKeepsNoDuplicates(ledger: seq<Notification>, calls: seq<AlertCall>)
    requires NoDuplicateAlerts(ledger)
    ensures NoDuplicateAlerts(RunAlerts(ledger, calls).ledger)
  {
    var l := RunAlerts(ledger, calls).ledger;
    NewRecordsFresh(ledger, calls);
    forall i, j | 0 <= i < j < |l| && l[i].kind == PriceDropKind && l[j].kind == PriceDropKind
      ensures l[i].itemId != l[j].itemId || l[i].price != l[j].price
    {
      if j < |ledger| {
        assert l[i] == l[..|ledger|][i] && l[j] == l[..|ledger|][j];
      } else {
        assert l[..j][i] == l[i];
      }
    }
  }
}

=== FILE: pending.dfy ===
/**
 `getPendingTasks` (workers/scraper.js): the tasks not yet executed, whose item
 exists and is enabled, that are due and not in flight, oldest first, at most
 five. The SQL leaves the order of equal scheduled times open, and so do the
 contracts here.
 */
module Pending {
  import opened Records

  const PendingLimit: nat := 5

  /** The JOIN with `items` and the `enabled = 1` filter. */
  predicate ItemEnabled(items: seq<Item>, itemId: Id) {
    exists k :: 0 <= k < |items| && items[k].id == itemId && items[k].enabled
  }

  predicate Eligible(t: Task, items: seq<Item>, now: Time, guard: set<Id>) {
    && IsPending(t)
    && ItemEnabled(items, t.itemId)
    && t.scheduled <= now
    && t.id !in guard
  }

  predicate SortedBySchedule(s: seq<Task>) {
    forall i, j :: 0 <= i < j < |s| ==> s[i].scheduled <= s[j].scheduled
  }

  /** The rows of `tasks` the WHERE clause keeps, in table order. */
  function EligibleTasks(tasks: seq<Task>, items: seq<Item>, now: Time, guard: set<Id>): (r: seq<Task>)
    ensures forall i :: 0 <= i < |r| ==> Eligible(r[i], items, now, guard)
    ensures forall t :: t in tasks && Eligible(t, items, now, guard) ==> t in multiset(r)
    ensures multiset(r) <= multiset(tasks)
  {
    if tasks == [] then []
    else
      var rest := EligibleTasks(tasks[1..], items, now, guard);
      assert tasks == [tasks[0]] + tasks[1..];
      if Eligible(tasks[0], items, now, guard) then [tasks[0]] + rest else rest
  }

  /** Inserts `t` into a schedule-sorted sequence, ahead of the first later-or-equal task. */
  function Insert(t: Task, s: seq<Task>): (r: seq<Task>)
    requires SortedBySchedule(s)
    ensures SortedBySchedule(r)
    ensures multiset(r) == multiset(s) + multiset{t}
  {
    if s == [] then [t]
    else if t.scheduled <= s[0].scheduled then
      SortedCons(t, s);
      [t] + s
    else
      var tail := Insert(t, s[1..]);
      assert s == [s[0]] + s[1..];
      LowerBound(s[0], t, s[1..], tail);
      SortedCons(s[0], tail);
      [s[0]] + tail
  }

  lemma SortedCons(x: Task, s: seq<Task>)
    requires SortedBySchedule(s)
    requires forall i :: 0 <= i < |s| ==> x.scheduled <= s[i].scheduled
    ensures SortedBySchedule([x] + s)
  {
    var r := [x] + s;
    forall i, j | 0 <= i < j < |r|
      ensures r[i].scheduled <= r[j].scheduled
    {
      assert r[j] == s[j - 1];
      if i > 0 {
        assert r[i] == s[i - 1];
      }
    }
  }

  /** Every task of `tail` is no earlier than `first` when `first` precedes `t` and all of `rest`. */
  lemma LowerBound(first: Task, t: Task, rest: seq<Task>, tail: seq<Task>)
    requires first.scheduled < t.scheduled
    requires forall i :: 0 <= i < |rest| ==> first.scheduled <= rest[i].scheduled
    requires multiset(tail) == multiset(rest) + multiset{t}
    ensures forall i :: 0 <= i < |tail| ==> first.scheduled <= tail[i].scheduled
  {
    forall i | 0 <= i < |tail|
      ensures first.scheduled <= tail[i].scheduled
    {
      var x := tail[i];
      assert x in multiset(tail);
      if x != t {
        assert x in multiset(rest);
        var j :| 0 <= j < |rest| && rest[j] == x;
      }
    }
  }

  /** Orders tasks by scheduled time. */
  function SortBySchedule(s: seq<Task>): (r: seq<Task>)
    ensures SortedBySchedule(r)
    ensures multiset(r) == multiset(s)
  {
    if s == [] then []
    else
      assert s == [s[0]] + s[1..];
      Insert(s[0], SortBySchedule(s[1..]))
  }

  /**
   The rows `getPendingTasks` returns: at most five eligible tasks, in ascending
   scheduled time; an eligible task is left out only when five tasks due no
   later than it are returned.
   */
  function PendingTasks(store: Store, now: Time, guard: set<Id>): (r: seq<Task>)
    ensures |r| <= PendingLimit
    ensures forall i :: 0 <= i < |r| ==> Eligible(r[i], store.items, now, guard)
    ensures SortedBySchedule(r)
    ensures multiset(r) <= multiset(store.tasks)
    ensures forall t :: t in store.tasks && Eligible(t, store.items, now, guard) && t !in r ==>
      |r| == PendingLimit && forall i :: 0 <= i < |r| ==> r[i].scheduled <= t.scheduled
  {
    var e := EligibleTasks(store.tasks, store.items, now, guard);
    var sorted := SortBySchedule(e);
    var n := if |sorted| < PendingLimit then |sorted| else PendingLimit;
    var r := sorted[..n];
    SelectionFacts(store, now, guard, e, sorted, n, r);
    r
  }

  lemma SelectionFacts(store: Store, now: Time, guard: set<Id>, e: seq<Task>, sorted: seq<Task>, n: nat, r: seq<Task>)
    requires e == EligibleTasks(store.tasks, store.items, now, guard)
    requires SortedBySchedule(sorted) && multiset(sorted) == multiset(e)
    requires n == if |sorted| < PendingLimit then |sorted| else PendingLimit
    requires r == sorted[..n]
    ensures |r| <= PendingLimit
    ensures forall i :: 0 <= i < |r| ==> Eligible(r[i], store.items, now, guard)
    ensures SortedBySchedule(r)
    ensures multiset(r) <= multiset(store.tasks)
    ensures forall t :: t in store.tasks && Eligible(t, store.items, now, guard) && t !in r ==>
      |r| == PendingLimit && forall i :: 0 <= i < |r| ==> r[i].scheduled <= t.scheduled
  {
    PrefixOfSorted(sorted, n);
    AllEligible(store, now, guard, e, sorted);
    assert forall i :: 0 <= i < |r| ==> r[i] == sorted[i];
    forall t | t in store.tasks && Eligible(t, store.items, now, guard) && t !in r
      ensures |r| == PendingLimit && forall i :: 0 <= i < |r| ==> r[i].scheduled <= t.scheduled
    {
      LeftOut(store, now, guard, e, sorted, n, t);
    }
  }

  /** An eligible task missing from the first `n` sorted ones is due no earlier than any of them, and `n` is the limit. */
  lemma LeftOut(store: Store, now: Time, guard: set<Id>, e: seq<Task>, sorted: seq<Task>, n: nat, t: Task)
    requires e == EligibleTasks(store.tasks, store.items, now, guard)
    requires SortedBySchedule(sorted) && multiset(sorted) == multiset(e)
    requires n == if |sorted| < PendingLimit then |sorted| else PendingLimit
    requires t in store.tasks && Eligible(t, store.items, now, guard) && t !in sorted[..n]
    ensures n == PendingLimit && forall i :: 0 <= i < n ==> sorted[i].scheduled <= t.scheduled
  {
    assert t in multiset(sorted);
    assert t in sorted;
    PrefixOfSorted(sorted, n);
  }

  lemma AllEligible(store: Store, now: Time, guard: set<Id>, e: seq<Task>, sorted: seq<Task>)
    requires e == EligibleTasks(store.tasks, store.items, now, guard)
    requires multiset(sorted) == multiset(e)
    ensures forall i :: 0 <= i < |sorted| ==> Eligible(sorted[i], store.items, now, guard)
  {
    forall i | 0 <= i < |sorted|
      ensures Eligible(sorted[i], store.items, now, guard)
    {
      assert sorted[i] in multiset(e);
      var j :| 0 <= j < |e| && e[j] == sorted[i];
    }
  }

  /**
   The first `n` tasks of a sorted sequence are sorted, are drawn from it, and
   none of the others is due earlier than any of them.
   */
  lemma PrefixOfSorted(sorted: seq<Task>, n: nat)
    requires SortedBySchedule(sorted) && n <= |sorted|
    ensures SortedBySchedule(sorted[..n])
    ensures multiset(sorted[..n]) <= multiset(sorted)
    ensures forall t :: t in sorted && t !in sorted[..n] ==>
      forall i :: 0 <= i < n ==> sorted[i].scheduled <= t.scheduled
  {
    assert sorted == sorted[..n] + sorted[n..];
    forall t | t in sorted && t !in sorted[..n]
      ensures forall i :: 0 <= i < n ==> sorted[i].scheduled <= t.scheduled
    {
      var j :| 0 <= j < |sorted| && sorted[j] == t;
      assert j >= n;
    }
  }
}

=== FILE: price_drops.dfy ===
/**
 `checkPriceDrops` (workers/scraper.js): find the enabled, notifying items
 whose latest price is at or below target and that were not notified at that
 price in the last seven days, then alert each through `sendPriceAlert`.

 The query's `datetime('now', '-7 days')` is `now - 7 * Day`; the delivery
 of each alert is an input.
 */
module PriceDrops {
  import opened Wrappers
  import opened Records
  import opened Notifier

  const RecentWindow: int := 7 * Day

  /**
   The `rn = 1` row of `LatestPrices`: a datapoint of the item with the
   greatest timestamp. Which of several rows sharing that timestamp is taken is
   left open by the query and is not promised here either.
   */
  function LatestDataPoint(dps: seq<DataPoint>, itemId: Id): (r: Option<DataPoint>)
    ensures r.None? <==> forall k :: 0 <= k < |dps| ==> dps[k].itemId != itemId
    ensures r.Some? ==> r.value in dps && r.value.itemId == itemId
    ensures r.Some? ==> forall k :: 0 <= k < |dps| && dps[k].itemId == itemId ==> dps[k].timestamp <= r.value.timestamp
    decreases |dps|
  {
    if dps == [] then None
    else
      var rest := LatestDataPoint(dps[1..], itemId);
      assert forall k :: 1 <= k < |dps| ==> dps[k] == dps[1..][k - 1];
      if dps[0].itemId != itemId then rest
      else if rest.None? || rest.value.timestamp < dps[0].timestamp then Some(dps[0])
      else rest
  }

  /**
   A match in `RecentNotifications`: a record of any type for the item at that
   price sent no earlier than seven days ago.
   */
  predicate RecentlyNotified(ledger: seq<Notification>, itemId: Id, price: real, now: Time) {
    exists k :: 0 <= k < |ledger| && ledger[k].itemId == itemId && ledger[k].price == price
      && ledger[k].sentAt >= now - RecentWindow
  }

  /** The WHERE clause of the query, for one item. */
  predicate IsDrop(store: Store, item: Item, now: Time) {
    var latest := LatestDataPoint(store.datapoints, item.id);
    && latest.Some?
    && latest.value.price <= item.targetPrice
    && item.enabled
    && item.notificationsEnabled
    && !RecentlyNotified(store.notifications, item.id, latest.value.price, now)
  }

  /** One row of the query: the item with its current price. */
  datatype Drop = Drop(item: Item, price: real)

  /** The query's rows for `items`, in table order: each a drop, at the item's latest price. */
  function DropsAmong(items: seq<Item>, store: Store, now: Time): (r: seq<Drop>)
    ensures forall k :: 0 <= k < |r| ==>
      && r[k].item in items && IsDrop(store, r[k].item, now)
      && r[k].price == LatestDataPoint(store.datapoints, r[k].item.id).value.price
    decreases |items|
  {
    if items == [] then []
    else
      var rest := DropsAmong(items[1..], store, now);
      assert forall it :: it in items[1..] ==> it in items;
      if IsDrop(store, items[0], now)
      then [Drop(items[0], LatestDataPoint(store.datapoints, items[0].id).value.price)] + rest
      else rest
  }

  /** No drop among `items` is missed. */
  lemma {:induction false} DropsAmongComplete(items: seq<Item>, store: Store, now: Time, it: Item)
    requires it in items && IsDrop(store, it, now)
    ensures exists k :: 0 <= k < |DropsAmong(items, store, now)| && DropsAmong(items, store, now)[k].item == it
    decreases |items|
  {
    var r := DropsAmong(items, store, now);
    var rest := DropsAmong(items[1..], store, now);
    if it == items[0] {
      assert r[0].item == it;
    } else {
      assert it in items[1..];
      DropsAmongComplete(items[1..], store, now, it);
      var k :| 0 <= k < |rest| && rest[k].item == it;
      if IsDrop(store, items[0], now) {
        assert r[k + 1] == rest[k];
      } else {
        assert r[k] == rest[k];
      }
    }
  }

  function DropCandidates(store: Store, now: Time): seq<Drop> {
    DropsAmong(store.items, store, now)
  }

  /** The `sendPriceAlert(item, item.current_price)` calls of one pass, in row order. */
  function PassCalls(drops: seq<Drop>, now: Time, deliveries: seq<bool>): (r: seq<AlertCall>)
    requires |deliveries| == |drops|
    ensures |r| == |drops|
    ensures forall k :: 0 <= k < |r| ==> r[k] == AlertCall(drops[k].item.id, drops[k].price, now, deliveries[k])
  {
    seq(|drops|, k requires 0 <= k < |drops| => AlertCall(drops[k].item.id, drops[k].price, now, deliveries[k]))
  }

  /** `n` is the alert sent now for one of `drops` whose message went through. */
  predicate AlertOfDelivered(n: Notification, drops: seq<Drop>, now: Time, deliveries: seq<bool>) {
    exists k :: 0 <= k < |drops| && k < |deliveries| && deliveries[k] &&
      n == Notification(drops[k].item.id, drops[k].price, now, PriceDropKind)
  }

  /** Every record a pass appends is the alert of a candidate whose message went through. */
  lemma {:induction false} PassRecordsDelivered(ledger: seq<Notification>, drops: seq<Drop>, now: Time, deliveries: seq<bool>)
    requires |deliveries| == |drops|
    ensures forall j :: |ledger| <= j < |RunAlerts(ledger, PassCalls(drops, now, deliveries)).ledger| ==>
      AlertOfDelivered(RunAlerts(ledger, PassCalls(drops, now, deliveries)).ledger[j], drops, now, deliveries)
  {
    var calls := PassCalls(drops, now, deliveries);
    var l := RunAlerts(ledger, calls).ledger;
    RecordsComeFromCalls(ledger, calls);
    forall j | |ledger| <= j < |l|
      ensures AlertOfDelivered(l[j], drops, now, deliveries)
    {
      var outcomes := RunAlerts(ledger, calls).outcomes;
      var k :| 0 <= k < |calls| && k < |outcomes| && outcomes[k] == Delivered && RecordedBy(l[j], calls[k]);
      assert deliveries[k];
    }
  }

  /** No two records a pass appends are for the same item at the same price. */
  lemma {:induction false} PassRecordsDistinct(ledger: seq<Notification>, drops: seq<Drop>, now: Time, deliveries: seq<bool>)
    requires |deliveries| == |drops|
    ensures forall i, j :: |ledger| <= i < j < |RunAlerts(ledger, PassCalls(drops, now, deliveries)).ledger| ==>
      var l := RunAlerts(ledger, PassCalls(drops, now, deliveries)).ledger;
      l[i].itemId != l[j].itemId || l[i].price != l[j].price
  {
    var calls := PassCalls(drops, now, deliveries);
    var l := RunAlerts(ledger, calls).ledger;
    RecordsComeFromCalls(ledger, calls);
    NewRecordsFresh(ledger, calls);
    forall i, j | |ledger| <= i < j < |l|
      ensures l[i].itemId != l[j].itemId || l[i].price != l[j].price
    {
      var outcomes := RunAlerts(ledger, calls).outcomes;
      var k :| 0 <= k < |calls| && k < |outcomes| && outcomes[k] == Delivered && RecordedBy(l[i], calls[k]);
      assert l[..j][i] == l[i];
    }
  }

  /**
   `checkPriceDrops()` at time `now`, with `deliveries[k]` saying whether the
   k-th alert's message goes through: only the notifications grow; every new
   record is a price-drop alert, sent now, for a candidate whose message went
   through, at its current price, and for a pair with no earlier price-drop
   record, so no two new records share a pair and a candidate gets at most
   one; and every candidate whose message goes through ends up on record.
   */
  function CheckPriceDrops(store: Store, now: Time, deliveries: seq<bool>): (r: Store)
    requires |deliveries| == |DropCandidates(store, now)|
    ensures r.items == store.items && r.tasks == store.tasks && r.datapoints == store.datapoints
    ensures |store.notifications| <= |r.notifications| <= |store.notifications| + |deliveries|
    ensures r.notifications[..|store.notifications|] == store.notifications
    ensures forall j :: |store.notifications| <= j < |r.notifications| ==>
      AlertOfDelivered(r.notifications[j], DropCandidates(store, now), now, deliveries)
    ensures forall k :: 0 <= k < |deliveries| && deliveries[k] ==>
      AlreadyAlerted(r.notifications, DropCandidates(store, now)[k].item.id, DropCandidates(store, now)[k].price)
    ensures forall j :: |store.notifications| <= j < |r.notifications| ==>
      !AlreadyAlerted(r.notifications[..j], r.notifications[j].itemId, r.notifications[j].price)
    ensures forall i, j :: |store.notifications| <= i < j < |r.notifications| ==>
      r.notifications[i].itemId != r.notifications[j].itemId || r.notifications[i].price != r.notifications[j].price
    ensures NoDuplicateAlerts(store.notifications) ==> NoDuplicateAlerts(r.notifications)
  {
    var drops := DropCandidates(store, now);
    var calls := PassCalls(drops, now, deliveries);
    var ledger := RunAlerts(store.notifications, calls).ledger;
    PassRecordsDelivered(store.notifications, drops, now, deliveries);
    PassRecordsDistinct(store.notifications, drops, now, deliveries);
    forall k | 0 <= k < |deliveries| && deliveries[k]
      ensures AlreadyAlerted(ledger, drops[k].item.id, drops[k].price)
    {
      DeliverableCallRecorded(store.notifications, calls, k);
    }
    NewRecordsFresh(store.notifications, calls);
    assert NoDuplicateAlerts(store.notifications) ==> NoDuplicateAlerts(ledger) by {
      if NoDuplicateAlerts(store.notifications) {
        RunAlertsKeepsNoDuplicates(store.notifications, calls);
      }
    }
    store.(notifications := ledger)
  }

  /**
   Once an item has been alerted at a price, no later pass alerts it at that
   price again, however long afterwards it runs: the ledger lookup has no
   time bound.
   */
  lemma {:induction false} NeverRealerted(store: Store, now: Time, deliveries: seq<bool>, itemId: Id, price: real)
    requires |deliveries| == |DropCandidates(store, now)|
    requires AlreadyAlerted(store.notifications, itemId, price)
    ensures var calls := PassCalls(DropCandidates(store, now), now, deliveries);
      DeliveredFor(calls, RunAlerts(store.notifications, calls).outcomes, itemId, price) == 0
  {
    var calls := PassCalls(DropCandidates(store, now), now, deliveries);
    AtMostOneAlertPerPrice(store.notifications, calls, itemId, price);
  }

  /**
   The seven-day window of the query and the unbounded lookup of
   `sendPriceAlert` disagree: an alert older than a week lets the item back
   among the candidates, but the alert itself is then suppressed.
   */
  lemma {:induction false} StaleAlertStillSuppressed(store: Store, now: Time, item: Item, k: nat)
    requires item in store.items && item.enabled && item.notificationsEnabled
    requires LatestDataPoint(store.datapoints, item.id).Some?
    requires LatestDataPoint(store.datapoints, item.id).value.price <= item.targetPrice
    requires k < |store.notifications|
    requires store.notifications[k] ==
      Notification(item.id, LatestDataPoint(store.datapoints, item.id).value.price, store.notifications[k].sentAt, PriceDropKind)
    requires forall j :: 0 <= j < |store.notifications| ==>
      var n := store.notifications[j];
      n.itemId == item.id && n.price == LatestDataPoint(store.datapoints, item.id).value.price ==> n.sentAt < now - RecentWindow
    ensures exists c :: 0 <= c < |DropCandidates(store, now)| && DropCandidates(store, now)[c].item == item
    ensures forall c :: 0 <= c < |DropCandidates(store, now)| && DropCandidates(store, now)[c].item == item ==>
      forall delivered: bool :: SendPriceAlert(store.notifications, item.id, DropCandidates(store, now)[c].price, now, delivered).outcome == Suppressed
  {
    var price := LatestDataPoint(store.datapoints, item.id).value.price;
    assert AlreadyAlerted(store.notifications, item.id, price);
    var drops := DropCandidates(store, now);
    assert !RecentlyNotified(store.notifications, item.id, price, now);
    assert IsDrop(store, item, now);
    DropsAmongComplete(store.items, store, now, item);
    forall c | 0 <= c < |drops| && drops[c].item == item
      ensures forall delivered: bool :: SendPriceAlert(store.notifications, item.id, drops[c].price, now, delivered).outcome == Suppressed
    {
      assert drops[c].price == price;
    }
  }
}

=== FILE: records.dfy ===
/**
 The rows the monitoring worker reads and writes (models/database.js), held as
 in-memory sequences in insertion order. Prices are exact reals (the REAL
 columns, without rounding); times are integer milliseconds.
 */
module Records {
  import opened Wrappers

  type Id = nat

  /** Milliseconds since the epoch. */
  type Time = int

  const Second: int := 1000
  const Minute: int := 60 * Second
  const Hour: int := 60 * Minute
  const Day: int := 24 * Hour

  /**
   A tracked product. `notificationsEnabled` stands for the
   `enable_notifications` column the price-drop query reads, which the schema
   in models/database.js does not declare.
   */
  datatype Item = Item(id: Id, url: string, targetPrice: real, enabled: bool, notificationsEnabled: bool)

  /** One scheduled scrape; `executed` is NULL until the attempt finishes. */
  datatype Task = Task(
    id: Id,
    itemId: Id,
    url: string,
    scheduled: Time,
    executed: Option<Time>,
    success: Option<bool>,
    screenshot: Option<string>,
    html: Option<string>)

  datatype DataPoint = DataPoint(itemId: Id, timestamp: Time, price: real)

  datatype Notification = Notification(itemId: Id, price: real, sentAt: Time, kind: string)

  const PriceDropKind: string := "price_drop"

  datatype Store = Store(
    items: seq<Item>,
    tasks: seq<Task>,
    datapoints: seq<DataPoint>,
    notifications: seq<Notification>)

  predicate IsPending(t: Task) {
    t.executed.None?
  }

  /** `items.id` is the primary key. */
  predicate UniqueItemIds(items: seq<Item>) {
    forall i, j :: 0 <= i < j < |items| ==> items[i].id != items[j].id
  }

  /** `scraping_tasks.id` is the primary key. */
  predicate UniqueTaskIds(tasks: seq<Task>) {
    forall i, j :: 0 <= i < j < |tasks| ==> tasks[i].id != tasks[j].id
  }

  predicate HasPendingTask(tasks: seq<Task>, itemId: Id) {
    exists k :: 0 <= k < |tasks| && tasks[k].itemId == itemId && IsPending(tasks[k])
  }

  /** An item has at most one task not yet executed; scheduling only adds a task for an item without one. */
  predicate AtMostOnePendingPerItem(tasks: seq<Task>) {
    forall i, j :: 0 <= i < j < |tasks| && IsPending(tasks[i]) && IsPending(tasks[j]) ==>
      tasks[i].itemId != tasks[j].itemId
  }
}

=== FILE: scheduler.dfy ===
/**
 `scheduleNewTasks` and `createNextTask` (workers/scraper.js): every enabled
 item without a pending task gets one new task, due a day later give or take
 up to half an hour.

 `Math.random()` is replaced by an explicit jitter per new task, `Date.now()`
 by one `now` for the whole pass, and the AUTOINCREMENT key by one more than
 the largest task id so far.
 */
module Scheduler {
  import opened Wrappers
  import opened Records

  /** `SCRAPE_INTERVAL`. */
  const ScrapeInterval: int := Day

  /**
   `(Math.random() - 0.5) * 3600000` lies in [-1800000, 1800000): half an hour
   either way, not the full hour the comment beside it claims.
   */
  const MaxJitter: int := 30 * Minute

  predicate ValidJitter(j: int) {
    -MaxJitter <= j < MaxJitter
  }

  /** The LEFT JOIN ... WHERE i.enabled = 1 AND st.id IS NULL condition. */
  predicate NeedsTask(tasks: seq<Task>, item: Item) {
    item.enabled && !HasPendingTask(tasks, item.id)
  }

  /** The rows of the query in `scheduleNewTasks`, in table order. */
  function ItemsNeedingTasks(items: seq<Item>, tasks: seq<Task>): (r: seq<Item>)
    ensures |r| <= |items|
    ensures forall i :: 0 <= i < |r| ==> r[i] in items && NeedsTask(tasks, r[i])
    ensures forall it :: it in items && NeedsTask(tasks, it) ==> it in r
  {
    if items == [] then []
    else
      var rest := ItemsNeedingTasks(items[1..], tasks);
      assert items == [items[0]] + items[1..];
      if NeedsTask(tasks, items[0]) then [items[0]] + rest else rest
  }

  /** Items with distinct ids yield needing rows with distinct ids. */
  lemma {:induction false} NeedingIdsDistinct(items: seq<Item>, tasks: seq<Task>)
    requires UniqueItemIds(items)
    ensures UniqueItemIds(ItemsNeedingTasks(items, tasks))
  {
    if items != [] {
      var rest := ItemsNeedingTasks(items[1..], tasks);
      assert UniqueItemIds(items[1..]) by {
        forall i, j | 0 <= i < j < |items[1..]|
          ensures items[1..][i].id != items[1..][j].id
        {
          assert items[1..][i] == items[i + 1] && items[1..][j] == items[j + 1];
        }
      }
      NeedingIdsDistinct(items[1..], tasks);
      if NeedsTask(tasks, items[0]) {
        var r := [items[0]] + rest;
        forall i, j | 0 <= i < j < |r|
          ensures r[i].id != r[j].id
        {
          assert r[j] == rest[j - 1];
          if i == 0 {
            var m :| 0 <= m < |items[1..]| && items[1..][m] == rest[j - 1];
            assert items[1..][m] == items[m + 1];
          } else {
            assert r[i] == rest[i - 1];
          }
        }
      }
    }
  }

  /** The largest task id, or 0 with no tasks. */
  function MaxTaskId(tasks: seq<Task>): (r: nat)
    ensures forall i :: 0 <= i < |tasks| ==> tasks[i].id <= r
    ensures tasks != [] ==> exists i :: 0 <= i < |tasks| && tasks[i].id == r
  {
    if tasks == [] then 0
    else
      var m := MaxTaskId(tasks[1..]);
      assert forall i :: 1 <= i < |tasks| ==> tasks[i] == tasks[1..][i - 1];
      if tasks[0].id >= m then tasks[0].id else m
  }

  /** The row `createNextTask(item.id, item.url)` inserts. */
  function NewTask(id: Id, item: Item, now: Time, jitter: int): (t: Task)
    requires ValidJitter(jitter)
    ensures IsPending(t) && t.success.None? && t.screenshot.None? && t.html.None?
    ensures t.itemId == item.id && t.url == item.url && t.id == id
    ensures now + ScrapeInterval - MaxJitter <= t.scheduled < now + ScrapeInterval + MaxJitter
  {
    Task(id, item.id, item.url, now + ScrapeInterval + jitter, None, None, None, None)
  }

  /** One new task per needing item, ids counting up from `firstId`. */
  function NewTasks(needing: seq<Item>, now: Time, jitters: seq<int>, firstId: Id): (r: seq<Task>)
    requires |jitters| == |needing|
    requires forall k :: 0 <= k < |jitters| ==> ValidJitter(jitters[k])
    ensures |r| == |needing|
    ensures forall k :: 0 <= k < |r| ==> FreshTaskFor(r[k], needing[k], now) && r[k].id == firstId + k
  {
    seq(|needing|, k requires 0 <= k < |needing| => NewTask(firstId + k, needing[k], now, jitters[k]))
  }

  /** The rows a pass appended. */
  function Added(before: Store, after: Store): seq<Task>
    requires |before.tasks| <= |after.tasks|
  {
    after.tasks[|before.tasks|..]
  }

  /** A task as `createNextTask` leaves it: pending, for the item, due a day from now give or take half an hour. */
  predicate FreshTaskFor(t: Task, item: Item, now: Time) {
    && IsPending(t) && t.itemId == item.id && t.url == item.url
    && now + ScrapeInterval - MaxJitter <= t.scheduled < now + ScrapeInterval + MaxJitter
  }

  /**
   `scheduleNewTasks()` at time `now`, with `jitters[k]` the jitter drawn for
   the k-th needing item: the old rows stay as they were, and after them come
   the new tasks, one per needing item, in order, each fresh for its item,
   with ids above every old id and increasing.
   */
  function ScheduleNewTasks(store: Store, now: Time, jitters: seq<int>): (r: Store)
    requires |jitters| == |ItemsNeedingTasks(store.items, store.tasks)|
    requires forall k :: 0 <= k < |jitters| ==> ValidJitter(jitters[k])
    ensures r.items == store.items && r.datapoints == store.datapoints
    ensures r.notifications == store.notifications
    ensures |r.tasks| == |store.tasks| + |jitters|
    ensures r.tasks[..|store.tasks|] == store.tasks
    ensures forall k :: 0 <= k < |jitters| ==>
      FreshTaskFor(Added(store, r)[k], ItemsNeedingTasks(store.items, store.tasks)[k], now)
    ensures forall i, k :: 0 <= i < |store.tasks| && 0 <= k < |jitters| ==> store.tasks[i].id < Added(store, r)[k].id
    ensures forall k, m :: 0 <= k < m < |jitters| ==> Added(store, r)[k].id < Added(store, r)[m].id
  {
    var needing := ItemsNeedingTasks(store.items, store.tasks);
    var added := NewTasks(needing, now, jitters, MaxTaskId(store.tasks) + 1);
    var r := store.(tasks := store.tasks + added);
    assert Added(store, r) == added;
    r
  }

  /** After a pass, every enabled item has a pending task. */
  lemma {:induction false} EveryEnabledItemScheduled(store: Store, now: Time, jitters: seq<int>)
    requires |jitters| == |ItemsNeedingTasks(store.items, store.tasks)|
    requires forall k :: 0 <= k < |jitters| ==> ValidJitter(jitters[k])
    ensures forall it :: it in store.items && it.enabled ==>
      HasPendingTask(ScheduleNewTasks(store, now, jitters).tasks, it.id)
  {
    var needing := ItemsNeedingTasks(store.items, store.tasks);
    var r := ScheduleNewTasks(store, now, jitters);
    var n := |store.tasks|;
    forall it | it in store.items && it.enabled
      ensures HasPendingTask(r.tasks, it.id)
    {
      if HasPendingTask(store.tasks, it.id) {
        PendingKept(store.tasks, r.tasks, it.id);
      } else {
        assert it in needing;
        var k :| 0 <= k < |needing| && needing[k] == it;
        assert Added(store, r)[k] == r.tasks[n + k];
        PendingAt(r.tasks, n + k, it.id);
      }
    }
  }

  lemma PendingAt(tasks: seq<Task>, k: nat, itemId: Id)
    requires k < |tasks| && tasks[k].itemId == itemId && IsPending(tasks[k])
    ensures HasPendingTask(tasks, itemId)
  {
  }

  /** A pending task stays pending when rows are only appended. */
  lemma PendingKept(before: seq<Task>, after: seq<Task>, itemId: Id)
    requires |before| <= |after| && after[..|before|] == before
    requires HasPendingTask(before, itemId)
    ensures HasPendingTask(after, itemId)
  {
    var k :| 0 <= k < |before| && before[k].itemId == itemId && IsPending(before[k]);
    assert after[k] == after[..|before|][k];
    PendingAt(after, k, itemId);
  }

  /** A second pass straight after the first finds nothing to schedule. */
  lemma {:induction false} SecondPassSchedulesNothing(store: Store, now: Time, jitters: seq<int>)
    requires |jitters| == |ItemsNeedingTasks(store.items, store.tasks)|
    requires forall k :: 0 <= k < |jitters| ==> ValidJitter(jitters[k])
    ensures ItemsNeedingTasks(store.items, ScheduleNewTasks(store, now, jitters).tasks) == []
  {
    EveryEnabledItemScheduled(store, now, jitters);
    NoneNeeding(store.items, ScheduleNewTasks(store, now, jitters).tasks);
  }

  /** No row comes back when every enabled item already has a pending task. */
  lemma {:induction false} NoneNeeding(items: seq<Item>, tasks: seq<Task>)
    requires forall it :: it in items && it.enabled ==> HasPendingTask(tasks, it.id)
    ensures ItemsNeedingTasks(items, tasks) == []
  {
    if items != [] {
      assert items[0] in items;
      assert forall it :: it in items[1..] ==> it in items;
      NoneNeeding(items[1..], tasks);
    }
  }

  /**
   With distinct item ids, an item gets a new task exactly when it is enabled
   and had no pending task, and no item gets two.
   */
  lemma {:induction false} OneNewTaskPerNeedingItem(store: Store, now: Time, jitters: seq<int>)
    requires |jitters| == |ItemsNeedingTasks(store.items, store.tasks)|
    requires forall k :: 0 <= k < |jitters| ==> ValidJitter(jitters[k])
    requires UniqueItemIds(store.items)
    ensures var added := Added(store, ScheduleNewTasks(store, now, jitters));
      forall it :: it in store.items ==>
        (NeedsTask(store.tasks, it) <==> exists k :: 0 <= k < |added| && added[k].itemId == it.id)
    ensures var added := Added(store, ScheduleNewTasks(store, now, jitters));
      forall k, m :: 0 <= k < m < |added| ==> added[k].itemId != added[m].itemId
  {
    var needing := ItemsNeedingTasks(store.items, store.tasks);
    var r := ScheduleNewTasks(store, now, jitters);
    var added := Added(store, r);
    var n := |store.tasks|;
    NeedingIdsDistinct(store.items, store.tasks);
    forall it | it in store.items
      ensures NeedsTask(store.tasks, it) <==> exists k :: 0 <= k < |added| && added[k].itemId == it.id
    {
      if NeedsTask(store.tasks, it) {
        var k :| 0 <= k < |needing| && needing[k] == it;
        assert added[k].itemId == it.id;
      }
      if exists k :: 0 <= k < |added| && added[k].itemId == it.id {
        var k :| 0 <= k < |added| && added[k].itemId == it.id;
        SameIdSameItem(store.items, needing[k], it);
      }
    }
  }

  /** Under distinct ids, an item is determined by its id. */
  lemma SameIdSameItem(items: seq<Item>, a: Item, b: Item)
    requires UniqueItemIds(items) && a in items && b in items && a.id == b.id
    ensures a == b
  {
    var i :| 0 <= i < |items| && items[i] == a;
    var j :| 0 <= j < |items| && items[j] == b;
  }

  /** The old rows survive a pass unchanged, and the k-th row after them is the k-th appended one. */
  lemma RowsAfterPass(store: Store, r: Store)
    requires |store.tasks| <= |r.tasks| && r.tasks[..|store.tasks|] == store.tasks
    ensures forall i :: 0 <= i < |store.tasks| ==> r.tasks[i] == store.tasks[i]
    ensures forall j :: |store.tasks| <= j < |r.tasks| ==> r.tasks[j] == Added(store, r)[j - |store.tasks|]
  {
    var n := |store.tasks|;
    forall i | 0 <= i < n
      ensures r.tasks[i] == store.tasks[i]
    {
      assert r.tasks[i] == r.tasks[..n][i];
    }
  }

  /** A pass keeps task ids distinct: the new ids lie above every old one and increase. */
  lemma {:induction false} ScheduleKeepsUniqueTaskIds(store: Store, now: Time, jitters: seq<int>)
    requires |jitters| == |ItemsNeedingTasks(store.items, store.tasks)|
    requires forall k :: 0 <= k < |jitters| ==> ValidJitter(jitters[k])
    requires UniqueTaskIds(store.tasks)
    ensures UniqueTaskIds(ScheduleNewTasks(store, now, jitters).tasks)
  {
    var r := ScheduleNewTasks(store, now, jitters);
    var n := |store.tasks|;
    RowsAfterPass(store, r);
    forall i, j | 0 <= i < j < |r.tasks|
      ensures r.tasks[i].id != r.tasks[j].id
    {
      if j >= n && i >= n {
        assert Added(store, r)[i - n].id < Added(store, r)[j - n].id;
      } else if j >= n {
        assert store.tasks[i].id < Added(store, r)[j - n].id;
      }
    }
  }

  /**
   With distinct item ids, a pass keeps at most one pending task per item:
   each new task is for an item that had none, and no item is served twice.
   */
  lemma {:induction false} ScheduleKeepsOnePendingPerItem(store: Store, now: Time, jitters: seq<int>)
    requires |jitters| == |ItemsNeedingTasks(store.items, store.tasks)|
    requires forall k :: 0 <= k < |jitters| ==> ValidJitter(jitters[k])
    requires UniqueItemIds(store.items)
    requires AtMostOnePendingPerItem(store.tasks)
    ensures AtMostOnePendingPerItem(ScheduleNewTasks(store, now, jitters).tasks)
  {
    var needing := ItemsNeedingTasks(store.items, store.tasks);
    var r := ScheduleNewTasks(store, now, jitters);
    var n := |store.tasks|;
    NeedingIdsDistinct(store.items, store.tasks);
    RowsAfterPass(store, r);
    forall i, j | 0 <= i < j < |r.tasks| && IsPending(r.tasks[i]) && IsPending(r.tasks[j])
      ensures r.tasks[i].itemId != r.tasks[j].itemId
    {
      if j >= n {
        assert FreshTaskFor(Added(store, r)[j - n], needing[j - n], now);
        if i >= n {
          assert FreshTaskFor(Added(store, r)[i - n], needing[i - n], now);
        } else {
          assert !HasPendingTask(store.tasks, needing[j - n].id);
        }
      }
    }
  }
}

=== FILE: text.dfy ===
/**
 Character classes and the two string primitives the price extractor is built
 from: the longest prefix whose characters satisfy a predicate (what a greedy
 regular-expression character class consumes) and the removal of characters
 (what `String.prototype.replace` with a global character-class pattern and an
 empty replacement does).
 */
module Text {

  /** `\d` in a JavaScript regular expression without the `u` flag: ASCII digits only. */
  predicate IsDigit(c: char) {
    '0' <= c <= '9'
  }

  /** Characters of the class `[\d,.]`. */
  predicate IsPriceChar(c: char) {
    IsDigit(c) || c == ',' || c == '.'
  }

  predicate IsNotPriceChar(c: char) {
    !IsPriceChar(c)
  }

  /** The alphabet a meta value is reduced to: digits and the decimal point. */
  predicate IsDigitOrDot(c: char) {
    IsDigit(c) || c == '.'
  }

  predicate IsNotComma(c: char) {
    c != ','
  }

  predicate AllDigits(s: string) {
    forall i :: 0 <= i < |s| ==> IsDigit(s[i])
  }

  /** Length of the longest prefix of `s` all of whose characters satisfy `p`. */
  function Span(s: string, p: char -> bool): (n: nat)
    ensures n <= |s|
    ensures forall i :: 0 <= i < n ==> p(s[i])
    ensures n == |s| || !p(s[n])
  {
    if s == [] || !p(s[0]) then 0 else 1 + Span(s[1..], p)
  }

  /** `s` with every character that fails `keep` dropped, the rest kept in order. */
  function Filter(s: string, keep: char -> bool): (r: string)
    ensures |r| <= |s|
    ensures forall i :: 0 <= i < |r| ==> keep(r[i])
    ensures (forall i :: 0 <= i < |s| ==> keep(s[i])) ==> r == s
  {
    if s == [] then []
    else (if keep(s[0]) then [s[0]] else []) + Filter(s[1..], keep)
  }

  /** Filtering distributes over concatenation. */
  lemma {:induction false} FilterAppend(a: string, b: string, keep: char -> bool)
    ensures Filter(a + b, keep) == Filter(a, keep) + Filter(b, keep)
  {
    if a != [] {
      assert (a + b)[1..] == a[1..] + b;
      FilterAppend(a[1..], b, keep);
    } else {
      assert a + b == b;
    }
  }

  /** Whatever holds of every character of `s` holds of every character kept. */
  lemma {:induction false} FilterKeeps(s: string, keep: char -> bool, p: char -> bool)
    requires forall i :: 0 <= i < |s| ==> p(s[i])
    ensures forall i :: 0 <= i < |Filter(s, keep)| ==> p(Filter(s, keep)[i])
  {
    if s != [] {
      FilterKeeps(s[1..], keep, p);
    }
  }

  /** Two successive filters are one filter by the conjunction of their predicates. */
  lemma {:induction false} FilterTwice(s: string, p: char -> bool, q: char -> bool, pq: char -> bool)
    requires forall c :: pq(c) == (p(c) && q(c))
    ensures Filter(Filter(s, p), q) == Filter(s, pq)
  {
    if s != [] {
      var head := if p(s[0]) then [s[0]] else [];
      FilterAppend(head, Filter(s[1..], p), q);
      FilterTwice(s[1..], p, q, pq);
    }
  }
}

=== FILE: worker.dfy ===
/**
 `processTask` and `checkPendingTasks` (workers/scraper.js) as transitions of
 the worker state: the store plus the in-memory set of task ids in flight.

 The browser session is not modelled; its result (or its failure, including
 the 60-second timeout and artifact-write errors) is an input.
 */
module Worker {
  import opened Wrappers
  import opened Decimals
  import opened Extractor
  import opened Records
  import opened Pending

  /**
   What one attempt produced: the extraction result with the paths the
   screenshot and markup were written to, or an exception from launching,
   navigating, the timeout race, extraction or the artifact writes.
   */
  datatype ScrapeOutcome = Scraped(price: PriceResult, screenshotPath: string, htmlPath: string) | Crashed

  datatype WorkerState = WorkerState(store: Store, guard: set<Id>)

  /**
   The attempt counts as a success exactly when extraction returned a truthy
   number: null, NaN and 0 all fail (`if (!price) throw ...`), as does any
   exception.
   */
  predicate Succeeded(o: ScrapeOutcome) {
    o.Scraped? && o.price.Found? && Truthy(Finite(o.price.price))
  }

  /** `updateTaskStatus`: stamps every row with id `id` as executed at `now`. */
  function MarkExecuted(tasks: seq<Task>, id: Id, now: Time, ok: bool,
                        screenshot: Option<string>, html: Option<string>): (r: seq<Task>)
    ensures |r| == |tasks|
    ensures forall i :: 0 <= i < |r| && tasks[i].id == id ==>
      && r[i].executed == Some(now) && r[i].success == Some(ok)
      && r[i].screenshot == screenshot && r[i].html == html
      && r[i].id == id && r[i].itemId == tasks[i].itemId
      && r[i].url == tasks[i].url && r[i].scheduled == tasks[i].scheduled
    ensures forall i :: 0 <= i < |r| && tasks[i].id != id ==> r[i] == tasks[i]
  {
    seq(|tasks|, i requires 0 <= i < |tasks| =>
      if tasks[i].id == id
      then tasks[i].(executed := Some(now), success := Some(ok), screenshot := screenshot, html := html)
      else tasks[i])
  }

  /** The guard check and insertion at the start of `processTask`; none when already in flight. */
  function BeginTask(guard: set<Id>, id: Id): (r: Option<set<Id>>)
    ensures r.None? <==> id in guard
    ensures r.Some? ==> r.value - {id} == guard && id in r.value
  {
    if id in guard then None else Some(guard + {id})
  }

  /**
   The body and `finally` of `processTask` after the guard check: on success a
   datapoint is saved and the task stamped successful with its artifact paths;
   otherwise it is stamped failed with null paths. The id leaves the guard.
   */
  function CompleteTask(w: WorkerState, task: Task, o: ScrapeOutcome, now: Time): (r: WorkerState)
    ensures r.guard == w.guard - {task.id}
    ensures r.store.items == w.store.items && r.store.notifications == w.store.notifications
    ensures |r.store.tasks| == |w.store.tasks|
    ensures forall i :: 0 <= i < |r.store.tasks| && w.store.tasks[i].id == task.id ==>
      StampedBy(r.store.tasks[i], w.store.tasks[i], now, o)
    ensures forall i :: 0 <= i < |r.store.tasks| && w.store.tasks[i].id != task.id ==>
      r.store.tasks[i] == w.store.tasks[i]
    ensures Succeeded(o) ==>
      r.store.datapoints == w.store.datapoints + [DataPoint(task.itemId, now, ToReal(o.price.price))]
    ensures !Succeeded(o) ==> r.store.datapoints == w.store.datapoints
  {
    var s := w.store;
    var store' :=
      if Succeeded(o) then
        s.(datapoints := s.datapoints + [DataPoint(task.itemId, now, ToReal(o.price.price))],
           tasks := MarkExecuted(s.tasks, task.id, now, true, Some(o.screenshotPath), Some(o.htmlPath)))
      else
        s.(tasks := MarkExecuted(s.tasks, task.id, now, false, None, None));
    WorkerState(store', w.guard - {task.id})
  }

  /** `processTask(task)` with the attempt's outcome `o`, finishing at `now`. */
  function ProcessTask(w: WorkerState, task: Task, o: ScrapeOutcome, now: Time): (r: WorkerState)
    ensures task.id in w.guard ==> r == w
    ensures r.guard == w.guard
    ensures r.store.items == w.store.items && r.store.notifications == w.store.notifications
    ensures |r.store.tasks| == |w.store.tasks|
    ensures task.id !in w.guard ==> forall i :: 0 <= i < |r.store.tasks| && w.store.tasks[i].id == task.id ==>
      StampedBy(r.store.tasks[i], w.store.tasks[i], now, o)
    ensures forall i :: 0 <= i < |r.store.tasks| && w.store.tasks[i].id != task.id ==>
      r.store.tasks[i] == w.store.tasks[i]
    ensures task.id !in w.guard && Succeeded(o) ==>
      r.store.datapoints == w.store.datapoints + [DataPoint(task.itemId, now, ToReal(o.price.price))]
    ensures !(task.id !in w.guard && Succeeded(o)) ==> r.store.datapoints == w.store.datapoints
  {
    match BeginTask(w.guard, task.id)
    case None => w
    case Some(inFlight) => CompleteTask(w.(guard := inFlight), task, o, now)
  }

  /** A datapoint is recorded only for a positive price: a price of 0 or NaN fails the task. */
  lemma {:induction false} ZeroOrNaNFails(w: WorkerState, task: Task, shot: string, html: string, now: Time)
    requires task.id !in w.guard
    ensures ProcessTask(w, task, Scraped(FoundNaN, shot, html), now).store.datapoints == w.store.datapoints
    ensures forall scale: nat ::
      ProcessTask(w, task, Scraped(Found(Decimal(0, scale)), shot, html), now).store.datapoints == w.store.datapoints
  {
    forall scale: nat
      ensures !Succeeded(Scraped(Found(Decimal(0, scale)), shot, html))
    {
      ZeroIffZeroMantissa(Decimal(0, scale));
    }
  }

  /**
   While a task is in flight (between the guard insertion and the `finally`),
   no poll selects it, whatever else changes.
   */
  lemma {:induction false} InFlightNotSelected(guard: set<Id>, task: Task, store: Store, now: Time)
    requires BeginTask(guard, task.id).Some?
    ensures forall t :: t in PendingTasks(store, now, BeginTask(guard, task.id).value) ==> t.id != task.id
  {
    var g := BeginTask(guard, task.id).value;
    var r := PendingTasks(store, now, g);
    forall t | t in r
      ensures t.id != task.id
    {
      var i :| 0 <= i < |r| && r[i] == t;
    }
  }

  /**
   Over sequential polls a task is executed at most once: after `processTask`
   runs it, no later poll selects it again, at any time and with any guard.
   Polls that overlap are another matter (`StaleSelectionRunsTwice`).
   */
  lemma {:induction false} ExecutedTaskNeverReselected(w: WorkerState, task: Task, o: ScrapeOutcome, now: Time,
                                    later: Time, guard: set<Id>)
    requires task.id !in w.guard
    ensures forall t :: t in PendingTasks(ProcessTask(w, task, o, now).store, later, guard) ==> t.id != task.id
  {
    var s := ProcessTask(w, task, o, now).store;
    SelectedAreStoredPending(s, later, guard);
    NoPendingRowWithId(w, task, o, now);
  }

  /**
   `processTask` checks only the in-flight set, not whether the row is still
   pending. When polls overlap, one poll can hand over a row it selected
   before another poll finished processing it; the task is then scraped
   again, and a second datapoint is saved and the row stamped anew.
   */
  lemma {:induction false} StaleSelectionRunsTwice(w: WorkerState, task: Task, o: ScrapeOutcome, first: Time, second: Time)
    requires task.id !in w.guard && Succeeded(o)
    ensures var once := ProcessTask(w, task, o, first);
      var twice := ProcessTask(once, task, o, second);
      && twice.store.datapoints == w.store.datapoints
           + [DataPoint(task.itemId, first, ToReal(o.price.price)), DataPoint(task.itemId, second, ToReal(o.price.price))]
      && forall i :: 0 <= i < |w.store.tasks| && w.store.tasks[i].id == task.id ==>
           twice.store.tasks[i].executed == Some(second)
  {
    var once := ProcessTask(w, task, o, first);
    assert task.id !in once.guard;
    var twice := ProcessTask(once, task, o, second);
    assert once.store.datapoints == w.store.datapoints + [DataPoint(task.itemId, first, ToReal(o.price.price))];
  }

  /** Every selected task is a pending row of the store. */
  lemma SelectedAreStoredPending(store: Store, now: Time, guard: set<Id>)
    ensures forall t :: t in PendingTasks(store, now, guard) ==> t in store.tasks && IsPending(t)
  {
    var r := PendingTasks(store, now, guard);
    forall t | t in r
      ensures t in store.tasks && IsPending(t)
    {
      assert t in multiset(r);
    }
  }

  /** After `processTask`, no row with the task's id is pending. */
  lemma NoPendingRowWithId(w: WorkerState, task: Task, o: ScrapeOutcome, now: Time)
    requires task.id !in w.guard
    ensures forall t :: t in ProcessTask(w, task, o, now).store.tasks && IsPending(t) ==> t.id != task.id
  {
    var s := ProcessTask(w, task, o, now).store;
    forall t | t in s.tasks && IsPending(t)
      ensures t.id != task.id
    {
      var k :| 0 <= k < |s.tasks| && s.tasks[k] == t;
      assert s.tasks[k].id == w.store.tasks[k].id;
    }
  }

  /**
   Processing a task only executes rows, never creates pending ones: the
   invariant that an item has at most one pending task, and the uniqueness of
   task ids, both survive it.
   */
  lemma {:induction false} ProcessKeepsInvariants(w: WorkerState, task: Task, o: ScrapeOutcome, now: Time)
    requires AtMostOnePendingPerItem(w.store.tasks) && UniqueTaskIds(w.store.tasks)
    ensures AtMostOnePendingPerItem(ProcessTask(w, task, o, now).store.tasks)
    ensures UniqueTaskIds(ProcessTask(w, task, o, now).store.tasks)
  {
    var before := w.store.tasks;
    var after := ProcessTask(w, task, o, now).store.tasks;
    forall i | 0 <= i < |after| && IsPending(after[i])
      ensures before[i] == after[i]
    {
      assert before[i].id != task.id || task.id in w.guard;
    }
    forall i | 0 <= i < |after|
      ensures after[i].id == before[i].id
    {
    }
  }

  /**
   After processing some of the selected tasks: the ids in `done` are
   executed, every other task is untouched, and at most `added` datapoints were
   appended.
   */
  predicate Progress(w: WorkerState, r: WorkerState, now: Time, scrape: Id -> ScrapeOutcome, done: set<Id>, added: nat) {
    && r.guard == w.guard
    && r.store.items == w.store.items && r.store.notifications == w.store.notifications
    && |r.store.tasks| == |w.store.tasks|
    && (forall i :: 0 <= i < |w.store.tasks| && w.store.tasks[i].id in done ==>
          StampedBy(r.store.tasks[i], w.store.tasks[i], now, scrape(w.store.tasks[i].id)))
    && (forall i :: 0 <= i < |w.store.tasks| && w.store.tasks[i].id !in done ==>
          r.store.tasks[i] == w.store.tasks[i])
    && |w.store.datapoints| <= |r.store.datapoints| <= |w.store.datapoints| + added
    && r.store.datapoints[..|w.store.datapoints|] == w.store.datapoints
  }

  /**
   A row as `processTask` leaves it after an attempt with outcome `o`: executed
   at `now`, with the same id and item, successful exactly when the attempt succeeded,
   with artifact paths exactly then.
   */
  predicate StampedBy(after: Task, before: Task, now: Time, o: ScrapeOutcome) {
    && after.executed == Some(now)
    && after.id == before.id && after.itemId == before.itemId
    && after.success == Some(Succeeded(o))
    && (Succeeded(o) <==> after.screenshot.Some?)
    && (Succeeded(o) <==> after.html.Some?)
  }

  /** Processing one more task not in flight extends the progress by that task. */
  lemma {:induction false} ProcessStep(w: WorkerState, r: WorkerState, task: Task, now: Time,
                                       scrape: Id -> ScrapeOutcome, done: set<Id>, added: nat)
    requires Progress(w, r, now, scrape, done, added)
    requires task.id !in w.guard
    ensures Progress(w, ProcessTask(r, task, scrape(task.id), now), now, scrape, done + {task.id}, added + 1)
  {
    var o := scrape(task.id);
    var r' := ProcessTask(r, task, o, now);
    assert r'.store.datapoints[..|w.store.datapoints|] == r.store.datapoints[..|w.store.datapoints|];
    forall i | 0 <= i < |w.store.tasks| && w.store.tasks[i].id in done + {task.id}
      ensures StampedBy(r'.store.tasks[i], w.store.tasks[i], now, scrape(w.store.tasks[i].id))
    {
      if w.store.tasks[i].id == task.id {
        assert r.store.tasks[i].id == task.id;
      } else {
        assert r.store.tasks[i].id != task.id;
      }
    }
  }

  /**
   `checkPendingTasks`: select the pending tasks once, then process them one
   after another; `scrape` gives each attempt's outcome. Every selected task
   ends up executed, successful exactly when its attempt succeeded and with
   artifact paths exactly then; every other task is untouched; and the
   datapoints of the successful attempts, in selection order, are appended.
   */
  method CheckPendingTasks(w: WorkerState, now: Time, scrape: Id -> ScrapeOutcome) returns (r: WorkerState)
    ensures r.guard == w.guard
    ensures r.store.items == w.store.items && r.store.notifications == w.store.notifications
    ensures |r.store.tasks| == |w.store.tasks|
    ensures forall i :: 0 <= i < |w.store.tasks| && w.store.tasks[i].id in Ids(PendingTasks(w.store, now, w.guard)) ==>
      StampedBy(r.store.tasks[i], w.store.tasks[i], now, scrape(w.store.tasks[i].id))
    ensures forall i :: 0 <= i < |w.store.tasks| && w.store.tasks[i].id !in Ids(PendingTasks(w.store, now, w.guard)) ==>
      r.store.tasks[i] == w.store.tasks[i]
    ensures |w.store.datapoints| <= |r.store.datapoints| <= |w.store.datapoints| + PendingLimit
    ensures r.store.datapoints[..|w.store.datapoints|] == w.store.datapoints
    ensures r.store.datapoints == w.store.datapoints + SavedPoints(PendingTasks(w.store, now, w.guard), now, scrape)
  {
    var selected := PendingTasks(w.store, now, w.guard);
    r := ProcessAll(w, selected, now, scrape);
  }

  /**
   The loop of `checkPendingTasks`: `processTask` on each task in turn, none
   of them in flight when the loop starts.
   */
  method ProcessAll(w: WorkerState, selected: seq<Task>, now: Time, scrape: Id -> ScrapeOutcome) returns (r: WorkerState)
    requires forall k :: 0 <= k < |selected| ==> selected[k].id !in w.guard
    ensures Progress(w, r, now, scrape, Ids(selected), |selected|)
    ensures r.store.datapoints == w.store.datapoints + SavedPoints(selected, now, scrape)
  {
    r := w;
    var done: set<Id> := {};
    var k := 0;
    assert w.store.datapoints[..|w.store.datapoints|] == w.store.datapoints;
    while k < |selected|
      invariant 0 <= k <= |selected|
      invariant done == Ids(selected[..k])
      invariant Progress(w, r, now, scrape, done, k)
      invariant r.store.datapoints == w.store.datapoints + SavedPoints(selected[..k], now, scrape)
    {
      var task := selected[k];
      ProcessStep(w, r, task, now, scrape, done, k);
      SavedStep(w, r, selected, k, now, scrape);
      r := ProcessTask(r, task, scrape(task.id), now);
      IdsOfLongerPrefix(selected, k);
      done := done + {task.id};
      k := k + 1;
    }
    assert selected[..k] == selected;
  }

  /**
   The datapoints processing `ts` in turn saves: one per task whose attempt
   succeeds, for its item, at `now` and the extracted price, in task order.
   */
  function SavedPoints(ts: seq<Task>, now: Time, scrape: Id -> ScrapeOutcome): (r: seq<DataPoint>)
    ensures |r| <= |ts|
    ensures forall j :: 0 <= j < |r| ==> r[j].timestamp == now
  {
    if ts == [] then []
    else
      var t := ts[|ts| - 1];
      var o := scrape(t.id);
      SavedPoints(ts[..|ts| - 1], now, scrape)
        + (if Succeeded(o) then [DataPoint(t.itemId, now, ToReal(o.price.price))] else [])
  }

  /** Processing the next selected task appends exactly its saved datapoint, if any. */
  lemma {:induction false} SavedStep(w: WorkerState, r: WorkerState, selected: seq<Task>, k: nat, now: Time,
                                     scrape: Id -> ScrapeOutcome)
    requires k < |selected| && selected[k].id !in r.guard
    requires r.store.datapoints == w.store.datapoints + SavedPoints(selected[..k], now, scrape)
    ensures ProcessTask(r, selected[k], scrape(selected[k].id), now).store.datapoints
      == w.store.datapoints + SavedPoints(selected[..k + 1], now, scrape)
  {
    SavedPointsSnoc(selected, k, now, scrape);
  }

  lemma SavedPointsSnoc(ts: seq<Task>, k: nat, now: Time, scrape: Id -> ScrapeOutcome)
    requires k < |ts|
    ensures var o := scrape(ts[k].id);
      SavedPoints(ts[..k + 1], now, scrape) == SavedPoints(ts[..k], now, scrape)
        + (if Succeeded(o) then [DataPoint(ts[k].itemId, now, ToReal(o.price.price))] else [])
  {
    assert ts[..k + 1][..k] == ts[..k];
    assert ts[..k + 1][k] == ts[k];
  }

  /** The ids of the tasks in `ts`. */
  function Ids(ts: seq<Task>): (r: set<Id>)
    ensures forall j :: 0 <= j < |ts| ==> ts[j].id in r
    ensures forall id :: id in r ==> exists j :: 0 <= j < |ts| && ts[j].id == id
  {
    set j | 0 <= j < |ts| :: ts[j].id
  }

  lemma IdsOfLongerPrefix(ts: seq<Task>, k: nat)
    requires k < |ts|
    ensures Ids(ts[..k + 1]) == Ids(ts[..k]) + {ts[k].id}
  {
    assert ts[..k + 1] == ts[..k] + [ts[k]];
    IdsSnoc(ts[..k], ts[k]);
  }

  lemma IdsSnoc(ts: seq<Task>, t: Task)
    ensures Ids(ts + [t]) == Ids(ts) + {t.id}
  {
    var u := ts + [t];
    assert u[|ts|] == t;
    forall id | id in Ids(u)
      ensures id in Ids(ts) + {t.id}
    {
      var j :| 0 <= j < |u| && u[j].id == id;
      if j < |ts| {
        assert u[j] == ts[j];
      }
    }
    forall id | id in Ids(ts)
      ensures id in Ids(u)
    {
      var j :| 0 <= j < |ts| && ts[j].id == id;
      assert u[j] == ts[j];
    }
  }
}

=== FILE: wrappers.dfy ===
/** Optional values, standing for JavaScript's `null`/`undefined` and SQL's NULL. */
module Wrappers {

  datatype Option<+T> = None | Some(value: T)
}
